=== FILE: README.md ===
# Structr references, reference groups and node-type field definitions

This project models three pieces of Structr's property layer and proves
properties of the model.

- **`Reference`**: a property key that stores nothing of its own. It pairs
  two keys:
  - `propertyKey`, the key the value is exposed under;
  - `referenceKey`, the key the value is read or written under on another
    entity.

  A navigation kind (`StartNode`, `Relationship`, `EndNode`) says which
  entity that is, seen from a relationship: its start node, the relationship
  itself, or its end node. All metadata is forwarded to `propertyKey`. The
  hooks do nothing, and the synchronization and ordering answers are
  constants.
- **`ReferenceGroup`**: a composite property of a relationship. Its
  constructor files each Reference under its JSON name in an
  insertion-ordered map.
  - Reading gathers one entry per Reference whose entity exists.
  - Writing scatters a property map back through every Reference whose
    entity exists and which is not read-only.
  - The group also builds a search-attribute group from search values, and
    looks up nested keys by name, failing on unknown names.
  - Used as an ordinary property key, it reads and writes the grouped value.
- **`NodeType`**: parses a field definition into an `InputField` record, and
  caches parsed fields per property key. A definition is either a bare type
  name, or a comma-separated list of `key=value` assignments such as
  `fieldType=Integer, size=5, required=yes`. Integer settings fall back to
  `-1` when they do not parse. `required` accepts `true`, `yes`, `ja` and
  `1` in any letter case.

The graph is an abstract store from (object, database key name) to a
value; an unset property reads as `null`. An object is a node or a
relationship: the two are distinct objects with their own properties, even
when a node and a relationship carry the same id. A relationship is a record with
an id and optional start and end node ids, so a dangling endpoint can be
represented. A `PropertyMap` is an insertion-ordered map keyed by the JSON
name of its property keys. This is an assumption: `getSearchAttribute` looks
values up through a `GenericProperty` built from the JSON name, and whether
that finds an entry depends on property-key equality, which is not part of
this model. The loops over `propertyKeys.values()` are modelled as
walks over the group's key sequence, looking each key up: the same
References in the same order.

Java library behaviour the parser depends on is modelled explicitly:

- `String.split("[c]+")`:
  - a string without `c` gives itself;
  - otherwise a leading empty piece is kept, runs of `c` act as one
    separator, and trailing empty pieces are dropped;
  - the input is the first piece, then each later piece after a non-empty
    run of `c`, then a possibly empty run of `c`.
- `String.trim` strips characters up to and including the space.
- `Integer.parseInt` accepts an optional sign and decimal digits, within the
  32-bit range.
- `equalsIgnoreCase` and `StringUtils.capitalize` are modelled for ASCII.

One consequence of following the code: a single assignment with a trailing
comma, such as `size=5,`, is parsed as one element. The whole untrimmed
string is then split on `=`, so the value is `5,`, which does not parse, and
the size becomes `-1`.

Files:

- `wrappers.dfy`: Option and Result.
- `linked_maps.dfy`: the insertion-ordered map.
- `seqs.dfy`: filtering and first positions.
- `java_strings.dfy`: trim, split, case folding, capitalize.
- `java_integers.dfy`: parseInt and decimal printing.
- `graph.dfy`: entities, relationships, the store.
- `property_keys.dfy`: plain keys and `PropertyMap`.
- `reference.dfy`: `Reference`.
- `search.dfy`: the search-attribute records.
- `reference_group.dfy`: `ReferenceGroup`.
- `node_type.dfy`: `NodeType` and `InputField`.

## Model

| member | source | states |
|---|---|---|
| LinkedMaps.Put | structr-core/src/main/java/org/structr/core/property/ReferenceGroup.java:57-59 | `put` binds the key to the new value; a key already present keeps its position, a new key goes last |
| LinkedMaps.Get | structr-core/src/main/java/org/structr/core/property/ReferenceGroup.java:171-175 | `containsKey`/`get`: a value exactly for the bound keys, and it is the bound one |
| JavaStrings.Trim | structr/structr-core/src/main/java/org/structr/core/entity/NodeType.java:113 | the result is a slice of the input with no blank at either end, and everything stripped is blank |
| JavaStrings.Split | structr/structr-core/src/main/java/org/structr/core/entity/NodeType.java:103 | `split("[c]+")`: without `c` the input itself; no piece holds `c`; only the first piece may be empty; the pieces concatenate to the input with `c` removed; the first piece is the text before the first `c`; a string of nothing but `c` gives no pieces; the input is the first piece, then each later piece after a non-empty run of `c`, then a possibly empty run of `c` |
| JavaStrings.EqualsIgnoreCaseLowerWord | structr/structr-core/src/main/java/org/structr/core/entity/NodeType.java:341-344 | comparing ignoring case against a lower-case word is the same as comparing the lower-cased string to it |
| JavaStrings.Capitalize | structr/structr-core/src/main/java/org/structr/core/entity/NodeType.java:253 | `null` stays `null`; the length is kept; the first character is title-cased and the rest is unchanged |
| JavaIntegers.ParseInt | structr/structr-core/src/main/java/org/structr/core/entity/NodeType.java:281 | succeeds exactly on an optional `-` or `+` followed by at least one digit whose value lies in the 32-bit range, and then returns that value |
| JavaIntegers.ParseIntExamples | structr/structr-core/src/main/java/org/structr/core/entity/NodeType.java:281 | `+5` gives 5 and `007` gives 7; `5 ` (with a trailing blank), `-` and the empty string fail |
| JavaIntegers.ParseIntOverflow | structr/structr-core/src/main/java/org/structr/core/entity/NodeType.java:277-284 | `2147483648`, one past the largest `int`, fails, so such a `size` setting becomes -1 |
| JavaIntegers.ParseShowInt | structr/structr-core/src/main/java/org/structr/core/entity/NodeType.java:281 | every 32-bit integer printed in decimal parses back to itself |
| Graph.SourceNode | structr-core/src/main/java/org/structr/core/property/Reference.java:71-72 | the start node exists exactly when the relationship has a start id, and it is the node with that id |
| Graph.TargetNode | structr-core/src/main/java/org/structr/core/property/Reference.java:77-78 | the end node exists exactly when the relationship has an end id, and it is the node with that id |
| PropertyKeys.NamedProperty | structr-core/src/main/java/org/structr/core/property/ReferenceGroup.java:61 | a plain key carries the given name as both database and JSON name, the given type, and no read-only, write-once or collection flag |
| PropertyKeys.SetProperty | structr-core/src/main/java/org/structr/core/property/ReferenceGroup.java:116 | writing a plain key on an entity is read back there, and no other property of any entity changes |
| PropertyKeys.Lookup | structr-core/src/main/java/org/structr/core/property/ReferenceGroup.java:115 | `PropertyMap.get` gives the bound value, or `null` for a key without an entry |
| References.GetReferencedEntity | structr-core/src/main/java/org/structr/core/property/Reference.java:65-83 | nothing without a relationship; otherwise the relationship itself for `Relationship`, and for `StartNode`/`EndNode` the node with the start/end id, or nothing when that endpoint is missing |
| References.ReferencedEntityIgnoresKeys | structr-core/src/main/java/org/structr/core/property/Reference.java:65-83 | two References with the same navigation kind find the same entity, whatever their keys |
| References.MetadataDelegates | structr-core/src/main/java/org/structr/core/property/Reference.java:86-188 | every metadata accessor answers exactly what `propertyKey` answers |
| References.Reference.WithDbName | structr-core/src/main/java/org/structr/core/property/Reference.java:96-99 | the delegate key becomes the old one with only its database name replaced; the navigation kind and reference key are kept |
| References.Reference.WithJsonName | structr-core/src/main/java/org/structr/core/property/Reference.java:101-104 | the delegate key becomes the old one with only its JSON name replaced; the navigation kind and reference key are kept |
| References.Reference.AddValidator | structr-core/src/main/java/org/structr/core/property/Reference.java:214-222 | the validator is appended to the delegate key's validators, which the Reference reports |
| References.HooksChangeNothing | structr-core/src/main/java/org/structr/core/property/Reference.java:181-212 | `setDeclaringClass` and `registrationCallback` leave the Reference as it was |
| References.NoSynchronization | structr-core/src/main/java/org/structr/core/property/Reference.java:224-232 | a Reference never requires synchronization and its synchronization key is `null` |
| References.ProcessedFirst | structr-core/src/main/java/org/structr/core/property/Reference.java:284-287 | the processing-order position is 0 |
| References.GetProperty | structr-core/src/main/java/org/structr/core/property/Reference.java:190-198 | reads the value stored under `propertyKey` on the object passed in, not on the navigated entity |
| References.SetProperty | structr-core/src/main/java/org/structr/core/property/Reference.java:200-203 | writes `propertyKey` on the object passed in, and changes no other property of any entity |
| ReferenceGroups.IndexByJsonName | structr-core/src/main/java/org/structr/core/property/ReferenceGroup.java:57-59 | the group's names are exactly the JSON names of the arguments, and each is bound to a Reference with that JSON name |
| ReferenceGroups.IndexBindsLast | structr-core/src/main/java/org/structr/core/property/ReferenceGroup.java:57-59 | each name is bound to the last argument carrying it |
| ReferenceGroups.IndexKeepsFirstPosition | structr-core/src/main/java/org/structr/core/property/ReferenceGroup.java:57-59 | the group's names are ordered by the position where each first occurs among the arguments |
| ReferenceGroups.NewReferenceGroup | structr-core/src/main/java/org/structr/core/property/ReferenceGroup.java:53-67 | the group keeps its name and entity class, builds its names as above, and its null-values-only flag is stored under `<name>.nullValuesOnly` |
| ReferenceGroups.Gather | structr-core/src/main/java/org/structr/core/property/ReferenceGroup.java:78-90 | the entries are the names whose Reference finds an entity, in order, and each holds that entity's value under `referenceKey` |
| ReferenceGroups.GetGroupedProperties | structr-core/src/main/java/org/structr/core/property/ReferenceGroup.java:71-96 | `null` exactly when the object is not a relationship; otherwise one entry per resolving Reference in group order, holding the value under `referenceKey` on the found entity, and no entry for a dangling one |
| ReferenceGroups.WriteThrough | structr-core/src/main/java/org/structr/core/property/ReferenceGroup.java:107-117 | a Reference that does not resolve, or is read-only, changes nothing; otherwise the map's value for its JSON name (`null` when absent) is stored on its entity under `referenceKey`, and nothing else changes |
| ReferenceGroups.Scatter | structr-core/src/main/java/org/structr/core/property/ReferenceGroup.java:105-118 | each property ends with the map's value for the last writing Reference that targets it, and a property no writing Reference targets keeps its value |
| ReferenceGroups.SetGroupedProperties | structr-core/src/main/java/org/structr/core/property/ReferenceGroup.java:99-120 | nothing changes unless the destination is a relationship; otherwise the outcome stated for the loop above |
| ReferenceGroups.RelationshipAndEndpointApart | structr-core/src/main/java/org/structr/core/property/ReferenceGroup.java:107-117 | a Reference to the relationship and one to an endpoint never reach the same property, even when the node and the relationship have the same id |
| ReferenceGroups.SetLeavesOthersAlone | structr-core/src/main/java/org/structr/core/property/ReferenceGroup.java:105-118 | a property no Reference writes keeps its value |
| ReferenceGroups.ReadOnlyIsNeverWritten | structr-core/src/main/java/org/structr/core/property/ReferenceGroup.java:113 | a property reached only through read-only References keeps its value |
| ReferenceGroups.GetThenSetRestoresValues | structr-core/src/main/java/org/structr/core/property/ReferenceGroup.java:71-120 | writing back what was just read from a relationship leaves every stored value unchanged |
| ReferenceGroups.SetThenGetReadsBack | structr-core/src/main/java/org/structr/core/property/ReferenceGroup.java:71-120 | when no two References reach the same property and none is read-only, every entry read after a write holds the written value for its name |
| ReferenceGroups.GetProperty | structr-core/src/main/java/org/structr/core/property/ReferenceGroup.java:218-221 | `getProperty` on the group yields a map exactly when the object is a relationship: one entry per resolving Reference in group order, holding the value under `referenceKey` on the found entity |
| ReferenceGroups.SetProperty | structr-core/src/main/java/org/structr/core/property/ReferenceGroup.java:223-226 | `setProperty` on the group changes nothing unless the object is a relationship; there each property ends with the map's value for the last writing Reference that targets it, and every other property keeps its value |
| ReferenceGroups.PropertyKeyRoundTrip | structr-core/src/main/java/org/structr/core/property/ReferenceGroup.java:218-226 | used as a plain key, the group reads `null` and writes nothing on a node, and on a relationship storing what it reads changes no value |
| ReferenceGroups.SearchMembers | structr-core/src/main/java/org/structr/core/property/ReferenceGroup.java:147-154 | one MUST member per name with a non-null search value, in order, matching the string form of that value |
| ReferenceGroups.GetSearchAttribute | structr-core/src/main/java/org/structr/core/property/ReferenceGroup.java:143-157 | the group carries the caller's occurrence rule and the members above, in group order |
| ReferenceGroups.GetNestedProperty | structr-core/src/main/java/org/structr/core/property/ReferenceGroup.java:169-176 | fails with the `IllegalArgumentException` message exactly when the name is not in the group; otherwise the Reference filed under it |
| ReferenceGroups.GetDirectAccessReferenceGroup | structr-core/src/main/java/org/structr/core/property/ReferenceGroup.java:187-194 | fails exactly when the name is not in the group; otherwise a generic property named by that Reference's database name |
| ReferenceGroups.SetDeclaringClass | structr-core/src/main/java/org/structr/core/property/ReferenceGroup.java:244-250 | forwarding the declaring class to every Reference leaves the group as it was |
| NodeTypes.DefinitionValueOf | structr/structr-core/src/main/java/org/structr/core/entity/NodeType.java:149 | a key found by `valueOf` is spelled exactly as the given string |
| NodeTypes.ValueOfName | structr/structr-core/src/main/java/org/structr/core/entity/NodeType.java:46-49 | every key is found by its own name, and `valueOf` fails exactly on strings that name no key |
| NodeTypes.ParsedOrMinusOne | structr/structr-core/src/main/java/org/structr/core/entity/NodeType.java:277-284 | the numeric setters (also lines 297-304, 317-324, 360-366) store the parsed integer, or -1 when it does not parse |
| NodeTypes.TruthyWords | structr/structr-core/src/main/java/org/structr/core/entity/NodeType.java:337-347 | `required` becomes true exactly when the value lower-cases to `true`, `yes`, `ja` or `1` |
| NodeTypes.Apply | structr/structr-core/src/main/java/org/structr/core/entity/NodeType.java:150-161 | the selected setter gives its key the interpreted value and leaves every other key unchanged |
| NodeTypes.Assignment | structr/structr-core/src/main/java/org/structr/core/entity/NodeType.java:139-149 | an element assigns something exactly when it splits on runs of `=` into two parts, both non-blank after trimming, the first naming a key; the value is the trimmed second part; an element without `=` assigns nothing |
| NodeTypes.ParseDefinition | structr/structr-core/src/main/java/org/structr/core/entity/NodeType.java:137-169 | an effective assignment sets its one key; any other element leaves the field unchanged |
| NodeTypes.LoopTurn | structr/structr-core/src/main/java/org/structr/core/entity/NodeType.java:111-118 | a turn of the loop (trim the element, parse it when non-empty and holding `=`) makes exactly the element's assignment, so the loop makes the elements' assignments in order |
| NodeTypes.ElementGuardIsRedundant | structr/structr-core/src/main/java/org/structr/core/entity/NodeType.java:113-117 | skipping empty elements and elements without `=` skips only elements that would assign nothing anyway |
| NodeTypes.NoAssignmentFound | structr/structr-core/src/main/java/org/structr/core/entity/NodeType.java:111-118 | there is no last assignment to a key exactly when no element assigns it |
| NodeTypes.LastAssignmentFound | structr/structr-core/src/main/java/org/structr/core/entity/NodeType.java:111-118 | the last assignment to a key comes from some element, and no later element assigns that key |
| NodeTypes.LastAssignmentWinsIn | structr/structr-core/src/main/java/org/structr/core/entity/NodeType.java:109-118 | after a sequence of assignments each key holds the value of the last assignment to it, or its starting value when there is none |
| NodeTypes.LastAssignmentWins | structr/structr-core/src/main/java/org/structr/core/entity/NodeType.java:109-118 | after the loop each key holds the value of its last effective assignment, or its starting value when there is none |
| NodeTypes.UnassignedKeyKept | structr/structr-core/src/main/java/org/structr/core/entity/NodeType.java:109-118 | a key that no element of a list assigns keeps its starting value |
| NodeTypes.Initial | structr/structr-core/src/main/java/org/structr/core/entity/NodeType.java:104-107 | a new field has the defaults, except that its name is the key without the one-character prefix |
| NodeTypes.ParsePropertyDefinition | structr/structr-core/src/main/java/org/structr/core/entity/NodeType.java:100-135 | fails exactly for a `null` definition (null pointer) or an empty key (index out of bounds); with more than one element each key follows its last assignment; otherwise a definition with `=` is parsed whole, and one without `=` becomes the field type |
| NodeTypes.NameDefaultsToKey | structr/structr-core/src/main/java/org/structr/core/entity/NodeType.java:107 | without an effective `name=` assignment (in some element of a list, or in a definition of at most one element), the field's name is the key without its prefix |
| NodeTypes.OldStyleDefinition | structr/structr-core/src/main/java/org/structr/core/entity/NodeType.java:127-131 | a definition without `,` or `=` gives the default field with that type name, named after the key |
| NodeTypes.GetLabel | structr/structr-core/src/main/java/org/structr/core/entity/NodeType.java:250-256 | a set label is returned as it is; otherwise the name capitalised, or `null` without a name |
| NodeTypes.GetInputField | structr/structr-core/src/main/java/org/structr/core/entity/NodeType.java:54-65 | a cached key is answered from the cache, unchanged; otherwise the parsed field is returned and cached, and a failed parse leaves the cache as it was |
| NodeTypes.CachedFieldIsStable | structr/structr-core/src/main/java/org/structr/core/entity/NodeType.java:54-65 | once a field was returned, the next request for the same key returns it again, whatever the definition now says |

## Left out

- Global registration through `StructrApp.getConfiguration()` in the `ReferenceGroup` constructor: a global registry with no effect on the group's own behaviour.
- `ReferenceGroup`'s `InputConverter`, `index` and `extractSearchableAttribute`: they call the unseen conversion helpers of `PropertyMap`, the index engine and an HTTP request.
- The forwarders whose targets are unseen: the database and input converters, `Reference.getSearchAttribute`, `index`, `extractSearchableAttribute`, `convertSearchValue` and the `indexed()`/`passivelyIndexed()`/`indexedWhenEmpty()` builders. The forwarding itself adds nothing to state.
- `ReferenceGroup`'s constant answers: `typeName` ("Object") and `isCollection` (false) are the plain definitions `TypeName` and `IsCollection`, without contracts of their own. `databaseConverter` (both overloads), `fixDatabaseProperty`, `relatedType`, `getSortType` and `getValueForEmptyFields` all return `null` and are not modelled.
- Aliasing of property keys: in the source `dbName(String)`, `jsonName(String)` and `addValidator` change the shared delegate key object, so every holder of that key sees the change, including a `ReferenceGroup` whose map stays filed under the old JSON name. Here keys are immutable values and those operations return a new Reference, so a group whose filing name no longer matches a Reference's JSON name cannot be represented.
- A `null` search-value map: `getSearchAttribute` throws a null pointer exception on it (ReferenceGroup.java line 149) as soon as the group holds a Reference; the map argument here is always a map.
- A `Reference` built with a `null` navigation kind: the `switch` in `getReferencedEntity` throws a null pointer exception once the relationship is non-null; the kind here is always one of the three values.
- UTF-16: Java strings are sequences of UTF-16 code units, strings here are sequences of Unicode scalar values. Where `substring(1)` on a key that begins with a supplementary character would keep half a surrogate pair, the model drops the whole character.
- Property keys' own storage behaviour (converters, validation, `FrameworkException` on a failed write): a plain key's read and write are a direct read and write of the store.
- ReferenceGroups.SetGroupedProperties: a `null` property map, which throws a null pointer exception in the source, is not modelled; the map argument here is always a map.
- `SecurityContext` arguments, the `predicate` argument of `Reference.getProperty`, and logging: they do not affect the values computed.
- `NodeType`'s `getStringProperty` read: the definition string is a parameter (`None` for `null`).
- `NodeType`'s rendering and lifecycle hooks (`getIconSrc`, `onNodeCreation` and the like), `UpdateCommand`, `GenericNode` and `CollectionIdProperty`: they are not part of this model.
- JavaIntegers.ParseInt: digits other than ASCII `0`-`9` are not accepted, although `Integer.parseInt` accepts every Unicode decimal digit.
- JavaStrings.EqualsIgnoreCaseLowerWord: case folding is ASCII only. Java's `equalsIgnoreCase` also matches some non-ASCII letters, for example the long s against `s`, so `required=yeſ` is true in Java and false here.
- JavaStrings.Capitalize: title-casing covers ASCII letters only.
- Lucene's `BooleanClause.Occur` is modelled as a three-valued enumeration.

=== FILE: graph.dfy ===
/**
  The graph the property layer reads and writes, reduced to what the layer
  sees of it: nodes and relationships identified by an id, a relationship's
  optional endpoints, and a store of property values indexed by object and
  database key name.
 */
module Graph {

  import opened Wrappers
  import JavaIntegers

  type EntityId = nat

  /** A stored property value; `Null` is Java's `null`. */
  datatype Value = Null | Text(s: string) | Number(n: int) | Flag(b: bool)

  /** `value.toString()` for a non-null value. */
  function ToString(v: Value): string
    requires !v.Null?
  {
    match v
    case Text(s) => s
    case Number(n) => JavaIntegers.ShowInt(n)
    case Flag(b) => if b then "true" else "false"
  }

  /** A relationship whose endpoints may be missing in a partial graph state. */
  datatype Relationship = Relationship(id: EntityId, source: Option<EntityId>, target: Option<EntityId>)

  /** `GraphObject`: a node, or a relationship (`AbstractRelationship`). */
  datatype GraphObject = NodeObject(id: EntityId) | RelationshipObject(rel: Relationship)

  /**
    The object whose properties a read or write addresses. Nodes and
    relationships are distinct objects with properties of their own, even
    when their ids coincide.
   */
  datatype ObjectRef = NodeRef(id: EntityId) | RelationshipRef(id: EntityId)

  function RefOf(obj: GraphObject): ObjectRef {
    match obj
    case NodeObject(id) => NodeRef(id)
    case RelationshipObject(rel) => RelationshipRef(rel.id)
  }

  /** `getSourceNode()`: `None` for a dangling start. */
  function SourceNode(rel: Relationship): (n: Option<GraphObject>)
    ensures n.Some? <==> rel.source.Some?
    ensures n.Some? ==> n.value == NodeObject(rel.source.value)
  {
    match rel.source
    case Some(id) => Some(NodeObject(id))
    case None => None
  }

  /** `getTargetNode()`: `None` for a dangling end. */
  function TargetNode(rel: Relationship): (n: Option<GraphObject>)
    ensures n.Some? <==> rel.target.Some?
    ensures n.Some? ==> n.value == NodeObject(rel.target.value)
  {
    match rel.target
    case Some(id) => Some(NodeObject(id))
    case None => None
  }

  /** Property values by (object, database key name). */
  type Store = map<(ObjectRef, string), Value>

  /** An unset property reads as `null`. */
  function Read(store: Store, e: ObjectRef, key: string): Value {
    if (e, key) in store then store[(e, key)] else Null
  }

  /** Storing a value: it is read back, and every other property keeps its value. */
  function Write(store: Store, e: ObjectRef, key: string, v: Value): (r: Store)
    ensures Read(r, e, key) == v
    ensures forall e': ObjectRef, key' :: (e', key') != (e, key) ==> Read(r, e', key') == Read(store, e', key')
  {
    store[(e, key) := v]
  }

  /** Two stores that no read can tell apart. */
  ghost predicate SameValues(a: Store, b: Store) {
    forall e: ObjectRef, key :: Read(a, e, key) == Read(b, e, key)
  }
}

=== FILE: java_integers.dfy ===
/**
  `Integer.parseInt` and `Integer.toString` over 32-bit `int`, with decimal
  digits `0`-`9`.
 */
module JavaIntegers {

  import opened Wrappers

  /** Java's `int`. */
  type Int32 = x: int | -0x8000_0000 <= x <= 0x7fff_ffff

  predicate IsDigit(ch: char) {
    '0' <= ch <= '9'
  }

  predicate AllDigits(s: string) {
    forall k :: 0 <= k < |s| ==> IsDigit(s[k])
  }

  function DigitValue(ch: char): (d: nat)
    requires IsDigit(ch)
    ensures d < 10
  {
    ch as int - '0' as int
  }

  function DigitChar(d: nat): (ch: char)
    requires d < 10
    ensures IsDigit(ch) && DigitValue(ch) == d
  {
    ('0' as int + d) as char
  }

  /** The number a string of decimal digits denotes, most significant first. */
  function DigitsValue(s: string): nat
    requires AllDigits(s)
  {
    if |s| == 0 then 0 else 10 * DigitsValue(s[..|s| - 1]) + DigitValue(s[|s| - 1])
  }

  /** Decimal digits, optionally after one `-` or `+`. */
  predicate IsNumeral(s: string) {
    (|s| > 0 && AllDigits(s)) || (|s| > 1 && (s[0] == '-' || s[0] == '+') && AllDigits(s[1..]))
  }

  /** The integer a numeral denotes, whatever its size. */
  function NumeralValue(s: string): int
    requires IsNumeral(s)
  {
    if s[0] == '-' then -(DigitsValue(s[1..]) as int)
    else if s[0] == '+' then DigitsValue(s[1..])
    else DigitsValue(s)
  }

  /**
    `Integer.parseInt(s)`: an optional `-` or `+`, then at least one digit,
    and a value inside the 32-bit range; `None` stands for the
    `NumberFormatException` thrown otherwise.
   */
  function ParseInt(s: string): (r: Option<Int32>)
    ensures r.Some? <==> IsNumeral(s) && -0x8000_0000 <= NumeralValue(s) <= 0x7fff_ffff
    ensures r.Some? ==> r.value == NumeralValue(s)
  {
    if |s| == 0 then None
    else
      var signed := s[0] == '-' || s[0] == '+';
      var digits := if signed then s[1..] else s;
      if |digits| == 0 || !AllDigits(digits) then None
      else
        assert signed ==> s[1..] == digits;
        assert !signed ==> s[1..] == digits[1..];
        var magnitude: int := DigitsValue(digits);
        var v := if s[0] == '-' then -magnitude else magnitude;
        if -0x8000_0000 <= v <= 0x7fff_ffff then Some(v) else None
  }

  /** Decimal digits of `n` without leading zeros. */
  function ShowNat(n: nat): (s: string)
    ensures |s| > 0 && AllDigits(s)
  {
    if n < 10 then [DigitChar(n)] else ShowNat(n / 10) + [DigitChar(n % 10)]
  }

  /** `Integer.toString(n)`. */
  function ShowInt(n: int): string {
    if n < 0 then "-" + ShowNat(-n) else ShowNat(n)
  }

  lemma {:induction false} DigitsOfShowNat(n: nat)
    ensures DigitsValue(ShowNat(n)) == n
  {
    if n >= 10 {
      var s := ShowNat(n);
      assert s[..|s| - 1] == ShowNat(n / 10);
      DigitsOfShowNat(n / 10);
    }
  }

  /** Every 32-bit integer is read back from its own decimal rendering. */
  lemma ParseShowInt(n: Int32)
    ensures ParseInt(ShowInt(n)) == Some(n)
  {
    var m: int := n;
    if m < 0 {
      ParseShowNegative(m);
    } else {
      ParseShowNonNegative(m);
    }
  }

  lemma ParseShowNegative(m: int)
    requires -0x8000_0000 <= m < 0
    ensures ParseInt(ShowInt(m)) == Some(m)
  {
    var d := ShowNat(-m);
    var s := "-" + d;
    assert ShowInt(m) == s;
    assert s[0] == '-' && s[1..] == d;
    DigitsOfShowNat(-m);
    var magnitude: int := DigitsValue(d);
    assert -magnitude == m;
  }

  lemma ParseShowNonNegative(m: int)
    requires 0 <= m <= 0x7fff_ffff
    ensures ParseInt(ShowInt(m)) == Some(m)
  {
    var s := ShowNat(m);
    assert ShowInt(m) == s;
    assert IsDigit(s[0]);
    DigitsOfShowNat(m);
  }

  /** Appending a digit shifts the value one decimal place. */
  lemma DigitsValueAppend(s: string, d: char)
    requires AllDigits(s) && IsDigit(d)
    ensures AllDigits(s + [d]) && DigitsValue(s + [d]) == 10 * DigitsValue(s) + DigitValue(d)
  {
    assert (s + [d])[..|s|] == s;
  }

  /** A plus sign and leading zeros are accepted; signs and digits alone, or trailing blanks, are not. */
  lemma ParseIntExamples()
    ensures ParseInt("+5") == Some(5)
    ensures ParseInt("007") == Some(7)
    ensures ParseInt("5 ") == None && ParseInt("-") == None && ParseInt("") == None
  {
    assert "+5"[1..] == "5";
    var z := ['0'];
    DigitsValueAppend(z, '0'); z := z + ['0'];
    DigitsValueAppend(z, '7'); z := z + ['7'];
    assert z == "007";
    assert !IsDigit("5 "[1]);
  }

  /** One past the largest `int` does not parse. */
  lemma ParseIntOverflow()
    ensures ParseInt("2147483648") == None
  {
    var s := ['2'];
    DigitsValueAppend(s, '1'); s := s + ['1'];
    DigitsValueAppend(s, '4'); s := s + ['4'];
    DigitsValueAppend(s, '7'); s := s + ['7'];
    DigitsValueAppend(s, '4'); s := s + ['4'];
    DigitsValueAppend(s, '8'); s := s + ['8'];
    DigitsValueAppend(s, '3'); s := s + ['3'];
    DigitsValueAppend(s, '6'); s := s + ['6'];
    DigitsValueAppend(s, '4'); s := s + ['4'];
    DigitsValueAppend(s, '8'); s := s + ['8'];
    assert DigitsValue(s) == 2147483648;
    assert s == "2147483648";
  }
}

=== FILE: java_strings.dfy ===
/**
  The few `java.lang.String` operations the field-definition parser relies on:
  `trim`, `split` with a one-character-class regex `[c]+`, `equalsIgnoreCase`
  and Commons-Lang `StringUtils.capitalize`. Case mapping covers ASCII only.
 */
module JavaStrings {

  import opened Wrappers
  import opened Seqs

  /** `trim` strips characters up to and including U+0020. */
  predicate IsBlank(ch: char) {
    ch <= ' '
  }

  /** Index of the first non-blank character, or `|s|`. */
  function LeadingBlanks(s: string): (n: nat)
    ensures n <= |s|
    ensures forall k :: 0 <= k < n ==> IsBlank(s[k])
    ensures n < |s| ==> !IsBlank(s[n])
  {
    if |s| == 0 || !IsBlank(s[0]) then 0 else 1 + LeadingBlanks(s[1..])
  }

  /** Length of `s` without its trailing blanks. */
  function TrailingStart(s: string): (n: nat)
    ensures n <= |s|
    ensures forall k :: n <= k < |s| ==> IsBlank(s[k])
    ensures n > 0 ==> !IsBlank(s[n - 1])
  {
    if |s| == 0 || !IsBlank(s[|s| - 1]) then |s| else TrailingStart(s[..|s| - 1])
  }

  /** `String.trim`: the slice of `s` between its leading and trailing blanks. */
  function Trim(s: string): (r: string)
    ensures |r| <= |s|
    ensures |r| > 0 ==> !IsBlank(r[0]) && !IsBlank(r[|r| - 1])
    ensures LeadingBlanks(s) + |r| <= |s|
    ensures r == s[LeadingBlanks(s)..LeadingBlanks(s) + |r|]
    ensures forall k :: LeadingBlanks(s) + |r| <= k < |s| ==> IsBlank(s[k])
  {
    var i := LeadingBlanks(s);
    if i == |s| then
      ""
    else
      var j := TrailingStart(s);
      assert i < j;
      s[i..j]
  }

  /** `s` with every `c` deleted. */
  function Without(s: string, c: char): (r: string)
    ensures c !in r
    ensures c !in s ==> r == s
  {
    if |s| == 0 then ""
    else if s[0] == c then Without(s[1..], c)
    else [s[0]] + Without(s[1..], c)
  }

  /** The pieces laid end to end. */
  function Concat(pieces: seq<string>): string {
    if |pieces| == 0 then "" else pieces[0] + Concat(pieces[1..])
  }

  /** Index just past the run of `c` that starts at `i`. */
  function RunEnd(s: string, c: char, i: nat): (j: nat)
    requires i <= |s|
    ensures i <= j <= |s|
    ensures forall k :: i <= k < j ==> s[k] == c
    ensures j < |s| ==> s[j] != c
    decreases |s| - i
  {
    if i < |s| && s[i] == c then RunEnd(s, c, i + 1) else i
  }

  /**
    What the regex matcher produces for `[c]+` before trailing empty strings
    are discarded: the text before each maximal run of `c`, then the rest.
   */
  function Pieces(s: string, c: char): (ps: seq<string>)
    ensures |ps| > 0
    ensures forall k :: 0 <= k < |ps| ==> c !in ps[k]
    ensures forall k :: 0 < k < |ps| - 1 ==> |ps[k]| > 0
    ensures Concat(ps) == Without(s, c)
    ensures c !in s ==> ps == [s]
    ensures c in s ==> ps[0] == s[..FirstIndex(s, c)]
    decreases |s|
  {
    if c !in s then [s]
    else
      var i := FirstIndex(s, c);
      var j := RunEnd(s, c, i);
      var rest := Pieces(s[j..], c);
      assert |rest[0]| > 0 || |rest| == 1 by {
        if j < |s| && |rest| > 1 {
          assert c in s[j..];
          assert rest[0] == s[j..][..FirstIndex(s[j..], c)];
          assert s[j..][0] != c;
        }
      }
      WithoutSplit(s, c, i, j);
      [s[..i]] + rest
  }

  /** Deleting every `c` from `s[..i] + c-run + s[j..]` leaves `s[..i]` and the rest. */
  lemma WithoutSplit(s: string, c: char, i: nat, j: nat)
    requires i <= j <= |s|
    requires c !in s[..i]
    requires forall k :: i <= k < j ==> s[k] == c
    ensures Without(s, c) == s[..i] + Without(s[j..], c)
  {
    assert forall k :: 0 <= k < i ==> s[k] == s[..i][k];
    WithoutKeepsClean(s, c, 0, i);
    WithoutSkipsRun(s, c, i, j);
    assert s[0..] == s;
  }

  /** A stretch `s[h..i]` free of `c` survives the deletion unchanged. */
  lemma {:induction false} WithoutKeepsClean(s: string, c: char, h: nat, i: nat)
    requires h <= i <= |s|
    requires forall k :: h <= k < i ==> s[k] != c
    ensures Without(s[h..], c) == s[h..i] + Without(s[i..], c)
    decreases i - h
  {
    if h < i {
      var t := s[h..];
      assert t[0] == s[h] != c;
      assert t[1..] == s[h + 1..];
      var rest := Without(s[i..], c);
      calc {
        Without(t, c);
        [s[h]] + Without(s[h + 1..], c);
        { WithoutKeepsClean(s, c, h + 1, i); }
        [s[h]] + (s[h + 1..i] + rest);
        ([s[h]] + s[h + 1..i]) + rest;
        { assert [s[h]] + s[h + 1..i] == s[h..i]; }
        s[h..i] + rest;
      }
    }
  }

  /** A run `s[i..j]` of `c` disappears entirely. */
  lemma {:induction false} WithoutSkipsRun(s: string, c: char, i: nat, j: nat)
    requires i <= j <= |s|
    requires forall k :: i <= k < j ==> s[k] == c
    ensures Without(s[i..], c) == Without(s[j..], c)
    decreases j - i
  {
    if i < j {
      var t := s[i..];
      assert t[0] == c;
      assert t[1..] == s[i + 1..];
      assert Without(t, c) == Without(s[i + 1..], c);
      WithoutSkipsRun(s, c, i + 1, j);
    }
  }

  /** Every character of `t` is `c`. */
  predicate AllOf(t: string, c: char) {
    forall k :: 0 <= k < |t| ==> t[k] == c
  }

  /**
    `s` is laid out as `ps[0]`, then each later piece preceded by a non-empty
    run of `c`, and at the end a possibly empty run of `c`.
   */
  predicate JoinedBy(s: string, c: char, ps: seq<string>)
    decreases |ps|
  {
    if |ps| == 0 then AllOf(s, c)
    else
      && |ps[0]| <= |s| && s[..|ps[0]|] == ps[0]
      && var rest := s[|ps[0]|..];
         if |ps| == 1 then AllOf(rest, c)
         else
           var j := RunEnd(rest, c, 0);
           0 < j && JoinedBy(rest[j..], c, ps[1..])
  }

  /** A run of `c` from `m` that stops exactly at `j` ends at `j`. */
  lemma {:induction false} RunEndAt(t: string, c: char, m: nat, j: nat)
    requires m <= j <= |t|
    requires forall k :: m <= k < j ==> t[k] == c
    requires j < |t| ==> t[j] != c
    ensures RunEnd(t, c, m) == j
    decreases j - m
  {
    if m < j {
      RunEndAt(t, c, m + 1, j);
    }
  }

  /** The matcher's pieces rebuild `s` with the runs of `c` between them. */
  lemma {:induction false} PiecesJoin(s: string, c: char)
    ensures JoinedBy(s, c, Pieces(s, c))
    decreases |s|
  {
    if c !in s {
      assert s[..|s|] == s;
    } else {
      var i := FirstIndex(s, c);
      var j := RunEnd(s, c, i);
      var rest := Pieces(s[j..], c);
      assert Pieces(s, c) == [s[..i]] + rest;
      PiecesJoin(s[j..], c);
      JoinedByCons(s, c, i, j, rest);
    }
  }

  /** `s[..i]`, a non-empty run of `c` up to `j`, then a layout of `s[j..]`. */
  lemma JoinedByCons(s: string, c: char, i: nat, j: nat, rest: seq<string>)
    requires i < j <= |s| && |rest| > 0
    requires forall k :: i <= k < j ==> s[k] == c
    requires j < |s| ==> s[j] != c
    requires JoinedBy(s[j..], c, rest)
    ensures JoinedBy(s, c, [s[..i]] + rest)
  {
    var ps := [s[..i]] + rest;
    var t := s[i..];
    assert ps[0] == s[..i] && ps[1..] == rest;
    assert t == s[|ps[0]|..];
    RunEndAt(t, c, 0, j - i);
    assert t[j - i..] == s[j..];
  }

  /** A final empty piece can be dropped: the run before it becomes the trailing run. */
  lemma {:induction false} JoinedByDropLast(s: string, c: char, ps: seq<string>)
    requires |ps| > 0 && ps[|ps| - 1] == ""
    requires JoinedBy(s, c, ps)
    ensures JoinedBy(s, c, ps[..|ps| - 1])
    decreases |ps|
  {
    if |ps| == 1 {
      assert s[|ps[0]|..] == s;
    } else if |ps| == 2 {
      assert ps == [ps[0], ""] && ps[..1] == [ps[0]];
      JoinedByDropLastOfPair(s, c, ps[0]);
    } else {
      var rest := s[|ps[0]|..];
      var j := RunEnd(rest, c, 0);
      JoinedByDropLast(rest[j..], c, ps[1..]);
      var tail := ps[1..][..|ps| - 2];
      JoinedByPrepend(s, c, ps[0], tail);
      assert [ps[0]] + tail == ps[..|ps| - 1];
    }
  }

  /** A piece, a non-empty run of `c`, then a layout of what follows. */
  lemma JoinedByPrepend(s: string, c: char, p: string, tail: seq<string>)
    requires |tail| > 0 && |p| <= |s| && s[..|p|] == p
    requires 0 < RunEnd(s[|p|..], c, 0)
    requires JoinedBy(s[|p|..][RunEnd(s[|p|..], c, 0)..], c, tail)
    ensures JoinedBy(s, c, [p] + tail)
  {
    assert ([p] + tail)[0] == p && ([p] + tail)[1..] == tail;
  }

  lemma JoinedByDropLastOfPair(s: string, c: char, p: string)
    requires JoinedBy(s, c, [p, ""])
    ensures JoinedBy(s, c, [p])
  {
    var rest := s[|p|..];
    var j := RunEnd(rest, c, 0);
    assert JoinedBy(rest[j..], c, [""]);
    assert rest[j..][0..] == rest[j..];
    assert j == |rest|;
  }

  /** Dropping trailing empty pieces keeps the layout. */
  lemma {:induction false} JoinedByDropTrailingEmpty(s: string, c: char, ps: seq<string>)
    requires JoinedBy(s, c, ps)
    ensures JoinedBy(s, c, DropTrailingEmpty(ps))
    decreases |ps|
  {
    if |ps| > 0 && |ps[|ps| - 1]| == 0 {
      JoinedByDropLast(s, c, ps);
      JoinedByDropTrailingEmpty(s, c, ps[..|ps| - 1]);
    }
  }

  /** `split(regex, 0)` drops every trailing empty string. */
  function DropTrailingEmpty(ps: seq<string>): (r: seq<string>)
    ensures |r| <= |ps| && r == ps[..|r|]
    ensures |r| > 0 ==> |r[|r| - 1]| > 0
    ensures forall k :: |r| <= k < |ps| ==> ps[k] == ""
  {
    if |ps| == 0 || |ps[|ps| - 1]| > 0 then ps
    else DropTrailingEmpty(ps[..|ps| - 1])
  }

  lemma {:induction false} ConcatOfEmptySuffix(ps: seq<string>, n: nat)
    requires n <= |ps|
    requires forall k :: n <= k < |ps| ==> ps[k] == ""
    ensures Concat(ps) == Concat(ps[..n])
    decreases |ps|
  {
    if n < |ps| {
      if n == 0 {
        assert ps[0] == "";
        ConcatOfEmptySuffix(ps[1..], 0);
        assert ps[1..][..0] == ps[..0];
      } else {
        ConcatOfEmptySuffix(ps[1..], n - 1);
        assert ps[1..][..n - 1] == ps[..n][1..];
      }
    } else {
      assert ps[..n] == ps;
    }
  }

  /**
    `s.split("[c]+")`. With no `c` at all the result is `[s]`, even for the
    empty string. Otherwise a leading empty piece is kept when `s` begins with
    `c`, runs of `c` act as one separator, and trailing empty pieces are
    dropped, so a string of nothing but `c` splits into no pieces.
   */
  function Split(s: string, c: char): (r: seq<string>)
    ensures c !in s ==> r == [s]
    ensures forall k :: 0 <= k < |r| ==> c !in r[k]
    ensures forall k :: 0 < k < |r| ==> |r[k]| > 0
    ensures Concat(r) == Without(s, c)
    ensures c in s && |r| > 0 ==> r[0] == s[..FirstIndex(s, c)]
    ensures c in s && Without(s, c) == "" ==> r == []
    ensures JoinedBy(s, c, r)
  {
    if c !in s then
      assert s[..|s|] == s;
      [s]
    else
      var ps := Pieces(s, c);
      var r := DropTrailingEmpty(ps);
      ConcatOfEmptySuffix(ps, |r|);
      assert Concat(r) == Without(s, c);
      assert |r| > 0 ==> Without(s, c) != "" by {
        if |r| > 0 {
          ConcatNonEmptyLast(r);
        }
      }
      SplitLayout(s, c);
      r
  }

  /** The pieces left after dropping the trailing empty ones still lay out `s`. */
  lemma SplitLayout(s: string, c: char)
    ensures JoinedBy(s, c, DropTrailingEmpty(Pieces(s, c)))
  {
    PiecesJoin(s, c);
    JoinedByDropTrailingEmpty(s, c, Pieces(s, c));
  }

  /** A sequence of pieces ending in a non-empty piece concatenates to a non-empty string. */
  lemma {:induction false} ConcatNonEmptyLast(ps: seq<string>)
    requires |ps| > 0 && |ps[|ps| - 1]| > 0
    ensures |Concat(ps)| > 0
    decreases |ps|
  {
    if |ps| > 1 {
      ConcatNonEmptyLast(ps[1..]);
    }
  }

  /** ASCII `Character.toLowerCase`. */
  function ToLower(ch: char): char {
    if 'A' <= ch <= 'Z' then (ch as int + 32) as char else ch
  }

  /** ASCII `Character.toTitleCase`. */
  function ToTitle(ch: char): char {
    if 'a' <= ch <= 'z' then (ch as int - 32) as char else ch
  }

  /** `a.equalsIgnoreCase(b)`, with ASCII case folding. */
  predicate EqualsIgnoreCase(a: string, b: string) {
    |a| == |b| && forall k :: 0 <= k < |a| ==> ToLower(a[k]) == ToLower(b[k])
  }

  /** `s` with every ASCII capital replaced by its small letter. */
  function Lower(s: string): (r: string)
    ensures |r| == |s|
    ensures forall k :: 0 <= k < |s| ==> r[k] == ToLower(s[k])
  {
    seq(|s|, k requires 0 <= k < |s| => ToLower(s[k]))
  }

  /** Comparing ignoring case against a lower-case word is comparing the lowered string. */
  lemma EqualsIgnoreCaseLowerWord(a: string, w: string)
    requires Lower(w) == w
    ensures EqualsIgnoreCase(a, w) <==> Lower(a) == w
  {
    if Lower(a) == w {
      forall k | 0 <= k < |a|
        ensures ToLower(a[k]) == ToLower(w[k])
      {
        assert w[k] == Lower(w)[k];
      }
    }
  }

  /**
    `StringUtils.capitalize`: `null` stays `null`, the empty string stays
    empty, otherwise the first character is title-cased.
   */
  function Capitalize(s: Option<string>): (r: Option<string>)
    ensures r.None? <==> s.None?
    ensures s.Some? ==> |r.value| == |s.value|
    ensures s.Some? && |s.value| > 0 ==>
      r.value[0] == ToTitle(s.value[0]) && r.value[1..] == s.value[1..]
  {
    match s
    case None => None
    case Some(t) => if |t| == 0 then Some(t) else Some([ToTitle(t[0])] + t[1..])
  }
}

=== FILE: linked_maps.dfy ===
/**
  An insertion-ordered map, the model of Java's `LinkedHashMap`: the keys in
  the order they were first inserted, together with the current binding of
  each key.
 */
module LinkedMaps {

  import opened Wrappers
  import Seqs

  datatype LinkedMapRep<K(==, !new), V> = LinkedMap(keys: seq<K>, values: map<K, V>) {

    /** Keys are listed once each, and exactly the bound keys are listed. */
    ghost predicate Valid() {
      && Seqs.Distinct(keys)
      && (forall k :: k in values <==> k in keys)
    }
  }

  type LinkedMap<K(==, !new), V> = m: LinkedMapRep<K, V> | m.Valid() witness LinkedMap([], map[])

  function Empty<K(==, !new), V>(): (m: LinkedMap<K, V>)
    ensures m.keys == [] && m.values == map[]
  {
    LinkedMap([], map[])
  }

  /**
    `put`: a key already present keeps its position and gets the new value;
    a new key goes to the end.
   */
  function Put<K(==, !new), V>(m: LinkedMap<K, V>, k: K, v: V): (r: LinkedMap<K, V>)
    ensures r.values == m.values[k := v]
    ensures k in m.values ==> r.keys == m.keys
    ensures k !in m.values ==> r.keys == m.keys + [k]
  {
    if k in m.values then
      LinkedMap(m.keys, m.values[k := v])
    else
      LinkedMap(m.keys + [k], m.values[k := v])
  }

  /** `containsKey` followed by `get`: `None` when the key is unbound. */
  function Get<K(==, !new), V>(m: LinkedMap<K, V>, k: K): (r: Option<V>)
    ensures r.Some? <==> k in m.keys
    ensures r.Some? ==> r.value == m.values[k]
  {
    if k in m.values then Some(m.values[k]) else None
  }
}

=== FILE: node_type.dfy ===
/**
  A custom node type describes the input fields of its instances in string
  properties named `_<field>`. Each definition is either a bare type name or
  a comma-separated list of `key=value` assignments; `NodeType` parses a
  definition into an `InputField` on first request and caches the result.
 */
module NodeTypes {

  import opened Wrappers
  import opened JavaStrings
  import opened JavaIntegers

  /** The prefix every field-describing property key starts with. */
  const Prefix := "_"

  /** Separates the elements of a definition list. */
  const Separator := ','

  /** Separates the key of one assignment from its value. */
  const DefinitionSeparator := '='

  /** The keys an assignment may set. */
  datatype Definition = FieldType | InputType | Name | Label | Size | MaxLength | Rows | Columns | Required

  /** The spelling of each key in a definition (the enum constant's name). */
  function DefinitionName(d: Definition): string {
    match d
    case FieldType => "fieldType"
    case InputType => "inputType"
    case Name => "name"
    case Label => "label"
    case Size => "size"
    case MaxLength => "maxLength"
    case Rows => "rows"
    case Columns => "columns"
    case Required => "required"
  }

  /** `Definition.valueOf`: the key spelled exactly `key`, `None` where Java throws. */
  function DefinitionValueOf(key: string): (d: Option<Definition>)
    ensures d.Some? ==> DefinitionName(d.value) == key
  {
    if key == "fieldType" then Some(FieldType)
    else if key == "inputType" then Some(InputType)
    else if key == "name" then Some(Name)
    else if key == "label" then Some(Label)
    else if key == "size" then Some(Size)
    else if key == "maxLength" then Some(MaxLength)
    else if key == "rows" then Some(Rows)
    else if key == "columns" then Some(Columns)
    else if key == "required" then Some(Required)
    else None
  }

  /** Every key is found by its own name, and no other string names a key. */
  lemma ValueOfName(d: Definition, key: string)
    ensures DefinitionValueOf(DefinitionName(d)) == Some(d)
    ensures DefinitionValueOf(key).None? <==> forall d' :: DefinitionName(d') != key
  {
    if DefinitionValueOf(key).None? {
      forall d' ensures DefinitionName(d') != key {
        match d'
        case FieldType =>
        case InputType =>
        case Name =>
        case Label =>
        case Size =>
        case MaxLength =>
        case Rows =>
        case Columns =>
        case Required =>
      }
    }
  }

  /** `InputField`: how an input for one property is rendered; `None` is `null`. */
  datatype InputField = InputField(
    fieldType: string,
    inputType: Option<string>,
    name: Option<string>,
    labelText: Option<string>,
    size: Int32,
    maxLength: Int32,
    rows: Int32,
    columns: Int32,
    required: bool)

  /** A freshly built `InputFieldImpl`. */
  const DefaultField := InputField("java.lang.String", None, None, None, 20, -1, 0, 80, false)

  /** The numeric setters: the parsed value, or `-1` when `Integer.parseInt` throws. */
  function ParsedOrMinusOne(v: string): (n: Int32)
    ensures ParseInt(v).Some? ==> n == ParseInt(v).value
    ensures ParseInt(v).None? ==> n == -1
  {
    ParseInt(v).GetOr(-1)
  }

  /** `setRequired`: "true", "yes", "ja" or "1", in any letter case. */
  predicate IsTruthy(v: string) {
    EqualsIgnoreCase(v, "true") || EqualsIgnoreCase(v, "yes") ||
    EqualsIgnoreCase(v, "ja") || EqualsIgnoreCase(v, "1")
  }

  /** `IsTruthy` holds exactly for the strings that lower-case to one of its four words. */
  lemma TruthyWords(v: string)
    ensures IsTruthy(v) <==> Lower(v) in ["true", "yes", "ja", "1"]
  {
    EqualsIgnoreCaseLowerWord(v, "true");
    EqualsIgnoreCaseLowerWord(v, "yes");
    EqualsIgnoreCaseLowerWord(v, "ja");
    EqualsIgnoreCaseLowerWord(v, "1");
  }

  /** The value one key holds in a field, whatever its type. */
  datatype FieldValue = Str(s: string) | OptStr(o: Option<string>) | Int(i: Int32) | Bool(b: bool)

  /** Reading the field a key sets. */
  function FieldOf(f: InputField, d: Definition): FieldValue {
    match d
    case FieldType => Str(f.fieldType)
    case InputType => OptStr(f.inputType)
    case Name => OptStr(f.name)
    case Label => OptStr(f.labelText)
    case Size => Int(f.size)
    case MaxLength => Int(f.maxLength)
    case Rows => Int(f.rows)
    case Columns => Int(f.columns)
    case Required => Bool(f.required)
  }

  /** What the setter for `d` stores when given the text `v`. */
  function Interpret(d: Definition, v: string): FieldValue {
    match d
    case FieldType => Str(v)
    case InputType | Name | Label => OptStr(Some(v))
    case Size | MaxLength | Rows | Columns => Int(ParsedOrMinusOne(v))
    case Required => Bool(IsTruthy(v))
  }

  /** The `switch` over the key: call the one setter `d` selects. */
  function Apply(f: InputField, d: Definition, v: string): (r: InputField)
    ensures FieldOf(r, d) == Interpret(d, v)
    ensures forall d' :: d' != d ==> FieldOf(r, d') == FieldOf(f, d')
  {
    match d
    case FieldType => f.(fieldType := v)
    case InputType => f.(inputType := Some(v))
    case Name => f.(name := Some(v))
    case Label => f.(labelText := Some(v))
    case Size => f.(size := ParsedOrMinusOne(v))
    case MaxLength => f.(maxLength := ParsedOrMinusOne(v))
    case Rows => f.(rows := ParsedOrMinusOne(v))
    case Columns => f.(columns := ParsedOrMinusOne(v))
    case Required => f.(required := IsTruthy(v))
  }

  /**
    The assignment `element` makes, if any: it must split on runs of `=` into
    exactly two parts, both non-blank, the first trimming to a key's name.
   */
  function Assignment(element: string): (a: Option<(Definition, string)>)
    ensures a.Some? <==>
      (var parts := Split(element, DefinitionSeparator);
       |parts| == 2 && |Trim(parts[0])| > 0 && |Trim(parts[1])| > 0 &&
       DefinitionValueOf(Trim(parts[0])).Some?)
    ensures a.Some? ==>
      DefinitionName(a.value.0) == Trim(Split(element, DefinitionSeparator)[0]) &&
      a.value.1 == Trim(Split(element, DefinitionSeparator)[1])
    ensures a.Some? ==> |a.value.1| > 0 && DefinitionSeparator !in a.value.1
    ensures DefinitionSeparator !in element ==> a.None?
  {
    var parts := Split(element, DefinitionSeparator);
    if |parts| == 2 then
      var key := Trim(parts[0]);
      var val := Trim(parts[1]);
      if |key| > 0 && |val| > 0 then
        match DefinitionValueOf(key)
        case Some(d) => Some((d, val))
        case None => None
      else None
    else None
  }

  /** The value a key has after `element` is parsed into `f`. */
  function AfterOne(f: InputField, element: string, d: Definition): FieldValue {
    match Assignment(element)
    case Some((d', v)) => if d' == d then Interpret(d, v) else FieldOf(f, d)
    case None => FieldOf(f, d)
  }

  /** Making the assignment `a`, if there is one. */
  function ApplyOne(g: InputField, a: Option<(Definition, string)>): InputField {
    match a
    case Some((d, v)) => Apply(g, d, v)
    case None => g
  }

  /** `parseDefinition`: an assignment sets its one key; anything else changes nothing. */
  function ParseDefinition(element: string, f: InputField): (r: InputField)
    ensures forall d :: FieldOf(r, d) == AfterOne(f, element, d)
  {
    ApplyOne(f, Assignment(element))
  }

  /** An element of a list: assigned after trimming, if non-empty and holding a `=`. */
  function ElementAssignment(element: string): Option<(Definition, string)> {
    var t := Trim(element);
    if |t| > 0 && DefinitionSeparator in t then Assignment(t) else None
  }

  /** The guard on list elements changes nothing: it only skips elements that assign nothing. */
  lemma ElementGuardIsRedundant(element: string)
    ensures ElementAssignment(element) == Assignment(Trim(element))
  {
    var t := Trim(element);
    if |t| == 0 {
      assert DefinitionSeparator !in t;
    }
  }

  /** Making the assignments `asgs` in order. */
  function ApplyAll(f: InputField, asgs: seq<Option<(Definition, string)>>): InputField
    decreases |asgs|
  {
    if |asgs| == 0 then f
    else ApplyOne(ApplyAll(f, asgs[..|asgs| - 1]), asgs[|asgs| - 1])
  }

  /**
    One turn of the loop over a list: the element is trimmed, and parsed when
    it is non-empty and holds a `=`. That is making the element's assignment.
   */
  lemma LoopTurn(g: InputField, element: string)
    ensures ApplyOne(g, ElementAssignment(element)) ==
      (var t := Trim(element); if |t| > 0 && DefinitionSeparator in t then ParseDefinition(t, g) else g)
  {
  }

  /** What each element of a list assigns, in order. */
  function Assignments(elems: seq<string>): (r: seq<Option<(Definition, string)>>)
    ensures |r| == |elems|
    ensures forall k :: 0 <= k < |elems| ==> r[k] == ElementAssignment(elems[k])
  {
    seq(|elems|, k requires 0 <= k < |elems| => ElementAssignment(elems[k]))
  }

  /** `a` assigns the key `d`. */
  predicate AssignsTo(a: Option<(Definition, string)>, d: Definition) {
    a.Some? && a.value.0 == d
  }

  /** The value the last assignment to `d` in `asgs` gives it, if one does. */
  function LastIn(asgs: seq<Option<(Definition, string)>>, d: Definition): Option<string>
    decreases |asgs|
  {
    if |asgs| == 0 then None
    else if AssignsTo(asgs[|asgs| - 1], d) then Some(asgs[|asgs| - 1].value.1)
    else LastIn(asgs[..|asgs| - 1], d)
  }

  /** The value the last element of a list assigning `d` gives it, if one does. */
  function LastAssignmentTo(elems: seq<string>, d: Definition): Option<string> {
    LastIn(Assignments(elems), d)
  }

  /** There is no last assignment to `d` exactly when nothing assigns `d`. */
  lemma {:induction false} NoAssignmentFound(asgs: seq<Option<(Definition, string)>>, d: Definition)
    ensures LastIn(asgs, d).None? <==> forall k :: 0 <= k < |asgs| ==> !AssignsTo(asgs[k], d)
    decreases |asgs|
  {
    if |asgs| > 0 {
      var init := asgs[..|asgs| - 1];
      NoAssignmentFound(init, d);
      assert forall k :: 0 <= k < |init| ==> init[k] == asgs[k];
    }
  }

  /** The last assignment to `d` is made at some position, and nothing after it assigns `d`. */
  lemma {:induction false} LastAssignmentFound(asgs: seq<Option<(Definition, string)>>, d: Definition)
    requires LastIn(asgs, d).Some?
    ensures exists k :: 0 <= k < |asgs| && asgs[k] == Some((d, LastIn(asgs, d).value)) && NoneAfter(asgs, d, k)
    decreases |asgs|
  {
    var n := |asgs| - 1;
    if AssignsTo(asgs[n], d) {
      assert asgs[n] == Some((d, LastIn(asgs, d).value)) && NoneAfter(asgs, d, n);
    } else {
      var init := asgs[..n];
      LastAssignmentFound(init, d);
      var k :| 0 <= k < |init| && init[k] == Some((d, LastIn(init, d).value)) && NoneAfter(init, d, k);
      assert init[k] == asgs[k];
      assert NoneAfter(asgs, d, k) by {
        forall j | k < j < |asgs| ensures !AssignsTo(asgs[j], d) {
          if j < n {
            assert init[j] == asgs[j];
          }
        }
      }
    }
  }

  /** Nothing after position `k` assigns `d`. */
  predicate NoneAfter(asgs: seq<Option<(Definition, string)>>, d: Definition, k: nat) {
    forall j :: k < j < |asgs| ==> !AssignsTo(asgs[j], d)
  }

  /** The value a key has after a list: that of its last assignment, or the starting one. */
  function AfterList(f: InputField, elems: seq<string>, d: Definition): FieldValue {
    match LastAssignmentTo(elems, d)
    case Some(v) => Interpret(d, v)
    case None => FieldOf(f, d)
  }

  /** The loop over a list: the elements' assignments, made in order (each turn is `LoopTurn`). */
  function ApplyElements(f: InputField, elems: seq<string>): InputField {
    ApplyAll(f, Assignments(elems))
  }

  /** After a sequence of assignments, a key holds the value of the last one to it. */
  lemma {:induction false} LastAssignmentWinsIn(f: InputField, asgs: seq<Option<(Definition, string)>>, d: Definition)
    ensures FieldOf(ApplyAll(f, asgs), d) == (match LastIn(asgs, d) case Some(v) => Interpret(d, v) case None => FieldOf(f, d))
    decreases |asgs|
  {
    if |asgs| > 0 {
      LastAssignmentWinsIn(f, asgs[..|asgs| - 1], d);
    }
  }

  /** Later assignments win, and each key is decided by the assignments to it alone. */
  lemma LastAssignmentWins(f: InputField, elems: seq<string>, d: Definition)
    ensures FieldOf(ApplyElements(f, elems), d) == AfterList(f, elems, d)
  {
    LastAssignmentWinsIn(f, Assignments(elems), d);
  }

  /** Exceptions `parsePropertyDefinition` lets escape. */
  datatype ParseError = NullPointerException | StringIndexOutOfBoundsException

  /** The field before any definition is applied: named after the key without its prefix. */
  function Initial(key: string): (f: InputField)
    requires |key| >= |Prefix|
    ensures forall d :: d != Name ==> FieldOf(f, d) == FieldOf(DefaultField, d)
    ensures f.name == Some(key[|Prefix|..])
  {
    DefaultField.(name := Some(key[|Prefix|..]))
  }

  /**
    `parsePropertyDefinition`: a `null` definition fails on the split, and a
    key shorter than the prefix fails on the substring that strips it.
   */
  function ParsePropertyDefinition(key: string, definition: Option<string>): (r: Result<InputField, ParseError>)
    ensures r.Failure? <==> definition.None? || |key| < |Prefix|
    ensures definition.None? ==> r == Failure(NullPointerException)
    ensures definition.Some? && |key| < |Prefix| ==> r == Failure(StringIndexOutOfBoundsException)
    ensures r.Success? && |Split(definition.value, Separator)| > 1 ==>
      forall d :: FieldOf(r.value, d) == AfterList(Initial(key), Split(definition.value, Separator), d)
    ensures r.Success? && |Split(definition.value, Separator)| <= 1 && DefinitionSeparator in definition.value ==>
      r.value == ParseDefinition(definition.value, Initial(key))
    ensures r.Success? && |Split(definition.value, Separator)| <= 1 && DefinitionSeparator !in definition.value ==>
      r.value == Initial(key).(fieldType := definition.value)
  {
    match definition
    case None => Failure(NullPointerException)
    case Some(def) =>
      var elems := Split(def, Separator);
      if |key| < |Prefix| then Failure(StringIndexOutOfBoundsException)
      else
        var f := Initial(key);
        if |elems| > 1 then
          var r := ApplyElements(f, elems);
          assert forall d :: FieldOf(r, d) == AfterList(f, elems, d) by {
            forall d ensures FieldOf(r, d) == AfterList(f, elems, d) {
              LastAssignmentWins(f, elems, d);
            }
          }
          Success(r)
        else if DefinitionSeparator in def then Success(ParseDefinition(def, f))
        else Success(f.(fieldType := def))
  }

  /** Without an effective `name=` assignment, the field is named after the key without its prefix. */
  lemma NameDefaultsToKey(key: string, def: string)
    requires |key| >= |Prefix|
    requires |Split(def, Separator)| > 1 ==>
      forall k :: 0 <= k < |Split(def, Separator)| ==> !AssignsTo(ElementAssignment(Split(def, Separator)[k]), Name)
    requires |Split(def, Separator)| <= 1 ==> !AssignsTo(Assignment(def), Name)
    ensures ParsePropertyDefinition(key, Some(def)).value.name == Some(key[|Prefix|..])
  {
    var elems := Split(def, Separator);
    var f := Initial(key);
    var r := ParsePropertyDefinition(key, Some(def)).value;
    if |elems| > 1 {
      UnassignedKeyKept(f, elems, Name);
      assert FieldOf(r, Name) == FieldOf(f, Name);
    } else if DefinitionSeparator in def {
      assert FieldOf(r, Name) == AfterOne(f, def, Name);
    }
  }

  /** A key no element of a list assigns keeps its starting value. */
  lemma UnassignedKeyKept(f: InputField, elems: seq<string>, d: Definition)
    requires forall k :: 0 <= k < |elems| ==> !AssignsTo(ElementAssignment(elems[k]), d)
    ensures AfterList(f, elems, d) == FieldOf(f, d)
  {
    NoAssignmentFound(Assignments(elems), d);
  }

  /** A definition without `,` or `=` is an old-style definition: just the type name. */
  lemma OldStyleDefinition(key: string, def: string)
    requires |key| >= |Prefix|
    requires Separator !in def && DefinitionSeparator !in def
    ensures ParsePropertyDefinition(key, Some(def)) ==
      Success(DefaultField.(fieldType := def, name := Some(key[|Prefix|..])))
  {
  }

  /** `getLabel`: the label if one was set, else the capitalised name. */
  function GetLabel(f: InputField): (r: Option<string>)
    ensures f.labelText.Some? ==> r == f.labelText
    ensures f.labelText.None? ==> (r.None? <==> f.name.None?)
    ensures f.labelText.None? && f.name.Some? ==>
      |r.value| == |f.name.value| &&
      (|f.name.value| > 0 ==> r.value[0] == ToTitle(f.name.value[0]) && r.value[1..] == f.name.value[1..])
  {
    if f.labelText.None? then Capitalize(f.name) else f.labelText
  }

  /** A `NodeType`'s cache of parsed fields, by property key. */
  datatype NodeType = NodeType(inputFieldMap: map<string, InputField>)

  /**
    `getInputField`: the cached field if there is one; otherwise the field
    parsed from `definition` (the node's string property under `key`), which
    is cached. A failed parse leaves the cache as it was.
   */
  function GetInputField(nt: NodeType, key: string, definition: Option<string>): (r: Result<(InputField, NodeType), ParseError>)
    ensures key in nt.inputFieldMap ==> r == Success((nt.inputFieldMap[key], nt))
    ensures key !in nt.inputFieldMap ==>
      (r.Success? <==> ParsePropertyDefinition(key, definition).Success?)
    ensures key !in nt.inputFieldMap && r.Success? ==>
      r.value.0 == ParsePropertyDefinition(key, definition).value &&
      r.value.1.inputFieldMap == nt.inputFieldMap[key := r.value.0]
    ensures key !in nt.inputFieldMap && r.Failure? ==> r.error == ParsePropertyDefinition(key, definition).error
  {
    if key in nt.inputFieldMap then Success((nt.inputFieldMap[key], nt))
    else
      match ParsePropertyDefinition(key, definition)
      case Success(f) => Success((f, NodeType(nt.inputFieldMap[key := f])))
      case Failure(e) => Failure(e)
  }

  /** Once parsed, a field is answered from the cache, whatever the definition says later. */
  lemma CachedFieldIsStable(nt: NodeType, key: string, first: Option<string>, later: Option<string>)
    requires key in nt.inputFieldMap || (first.Some? && |key| >= |Prefix|)
    ensures var (f, nt') := GetInputField(nt, key, first).value;
      GetInputField(nt', key, later) == Success((f, nt'))
  {
  }
}

=== FILE: property_keys.dfy ===
/**
  The plain, directly stored property key that References delegate to, and
  the `PropertyMap` that grouped values travel in.
 */
module PropertyKeys {

  import opened Wrappers
  import opened Graph
  import opened LinkedMaps

  type ClassName = string

  /** Converters, validators and builders are opaque tokens here. */
  type ValidatorId = nat

  /** A property key's metadata, as its accessors report it. */
  datatype PropertyKey = PropertyKey(
    dbName: string,
    jsonName: string,
    typeName: string,
    defaultValue: Value,
    sortType: Option<int>,
    relatedType: Option<ClassName>,
    unvalidated: bool,
    readOnly: bool,
    writeOnce: bool,
    indexed: bool,
    passivelyIndexed: bool,
    searchable: bool,
    indexedWhenEmpty: bool,
    collection: bool,
    declaringClass: Option<ClassName>,
    validators: seq<ValidatorId>)

  /** A key stored under `name` for both its database and its JSON name, with no flags set. */
  function NamedProperty(name: string, typeName: string): (k: PropertyKey)
    ensures k.dbName == name && k.jsonName == name && k.typeName == typeName
    ensures !k.readOnly && !k.writeOnce && !k.collection
  {
    PropertyKey(name, name, typeName, Null, None, None,
      false, false, false, false, false, false, false, false, None, [])
  }

  function GenericProperty(name: string): PropertyKey {
    NamedProperty(name, "Object")
  }

  function BooleanProperty(name: string): PropertyKey {
    NamedProperty(name, "Boolean")
  }

  /** Reading a plain key off an entity: the value stored under its database name. */
  function GetProperty(key: PropertyKey, store: Store, obj: GraphObject): Value {
    Read(store, RefOf(obj), key.dbName)
  }

  /** Writing a plain key on an entity touches that one property of that one entity. */
  function SetProperty(key: PropertyKey, store: Store, obj: GraphObject, v: Value): (r: Store)
    ensures GetProperty(key, r, obj) == v
    ensures forall e: ObjectRef, k :: (e, k) != (RefOf(obj), key.dbName) ==> Read(r, e, k) == Read(store, e, k)
  {
    Write(store, RefOf(obj), key.dbName, v)
  }

  /** `PropertyMap`: values in insertion order, keyed by the key's JSON name. */
  type PropertyMap = LinkedMap<string, Value>

  /** `PropertyMap.get`: `null` for a key without an entry. */
  function Lookup(m: PropertyMap, jsonName: string): (v: Value)
    ensures jsonName !in m.keys ==> v == Null
    ensures jsonName in m.keys ==> v == m.values[jsonName]
  {
    if jsonName in m.values then m.values[jsonName] else Null
  }
}

=== FILE: reference.dfy ===
/**
  `Reference`: a property key that stores nothing itself. It exposes the
  value of `propertyKey`, and knows which entity of a relationship the value
  lives on (the start node, the relationship itself or the end node) and
  under which key (`referenceKey`) it is read or written there.
 */
module References {

  import opened Wrappers
  import opened Graph
  import opened PropertyKeys

  /** `Reference.Key`: where to navigate from a relationship. */
  datatype Key = StartNode | Relationship | EndNode

  datatype Reference = Reference(propertyKey: PropertyKey, referenceType: Key, referenceKey: PropertyKey) {

    // ----- interface PropertyKey: metadata forwarded to propertyKey -----

    function DbName(): string { propertyKey.dbName }
    function JsonName(): string { propertyKey.jsonName }
    function TypeName(): string { propertyKey.typeName }
    function DefaultValue(): Value { propertyKey.defaultValue }
    function SortType(): Option<int> { propertyKey.sortType }
    function RelatedType(): Option<ClassName> { propertyKey.relatedType }
    predicate IsUnvalidated() { propertyKey.unvalidated }
    predicate IsReadOnly() { propertyKey.readOnly }
    predicate IsWriteOnce() { propertyKey.writeOnce }
    predicate IsIndexed() { propertyKey.indexed }
    predicate IsPassivelyIndexed() { propertyKey.passivelyIndexed }
    predicate IsSearchable() { propertyKey.searchable }
    predicate IsIndexedWhenEmpty() { propertyKey.indexedWhenEmpty }
    predicate IsCollection() { propertyKey.collection }
    function DeclaringClass(): Option<ClassName> { propertyKey.declaringClass }
    function Validators(): seq<ValidatorId> { propertyKey.validators }

    // ----- interface PropertyKey: constants of a Reference -----

    predicate RequiresSynchronization() { false }
    function SynchronizationKey(): Option<string> { None }
    function ProcessingOrderPosition(): int { 0 }

    // ----- interface PropertyKey: updates -----

    /** `dbName(String)`: renames the delegate key. */
    function WithDbName(name: string): (r: Reference)
      ensures r.DbName() == name && r.JsonName() == JsonName()
      ensures r.propertyKey == propertyKey.(dbName := name)
      ensures r.referenceType == referenceType && r.referenceKey == referenceKey
    {
      this.(propertyKey := propertyKey.(dbName := name))
    }

    /** `jsonName(String)`: renames the delegate key. */
    function WithJsonName(name: string): (r: Reference)
      ensures r.JsonName() == name && r.DbName() == DbName()
      ensures r.propertyKey == propertyKey.(jsonName := name)
      ensures r.referenceType == referenceType && r.referenceKey == referenceKey
    {
      this.(propertyKey := propertyKey.(jsonName := name))
    }

    /** `addValidator`: the validator is registered on the delegate key. */
    function AddValidator(v: ValidatorId): (r: Reference)
      ensures r.Validators() == Validators() + [v]
      ensures r.propertyKey == propertyKey.(validators := propertyKey.validators + [v])
      ensures r.referenceType == referenceType && r.referenceKey == referenceKey
    {
      this.(propertyKey := propertyKey.(validators := propertyKey.validators + [v]))
    }

    /** `setDeclaringClass`: a Reference is a view and keeps no declaring class of its own. */
    function SetDeclaringClass(declaringClass: ClassName): Reference {
      this
    }

    /** `registrationCallback`: nothing is registered. */
    function RegistrationCallback(entityType: ClassName): Reference {
      this
    }
  }

  /**
    `getReferencedEntity`: nothing for a `null` relationship; otherwise the
    start node, the relationship itself or the end node, as `referenceType`
    says. A dangling endpoint yields nothing.
   */
  function GetReferencedEntity(r: Reference, rel: Option<Graph.Relationship>): (e: Option<GraphObject>)
    ensures e.Some? ==> rel.Some?
    ensures rel.Some? && r.referenceType.Relationship? ==> e == Some(RelationshipObject(rel.value))
    ensures rel.Some? && r.referenceType.StartNode? ==>
      (e.Some? <==> rel.value.source.Some?) && (e.Some? ==> e.value == NodeObject(rel.value.source.value))
    ensures rel.Some? && r.referenceType.EndNode? ==>
      (e.Some? <==> rel.value.target.Some?) && (e.Some? ==> e.value == NodeObject(rel.value.target.value))
  {
    if rel.None? then None
    else if r.referenceType.StartNode? then SourceNode(rel.value)
    else if r.referenceType.Relationship? then Some(RelationshipObject(rel.value))
    else TargetNode(rel.value)
  }

  /** `getProperty`: reads `propertyKey` off the object it is given, without navigating. */
  function GetProperty(r: Reference, store: Store, obj: GraphObject): (v: Value)
    ensures v == Read(store, RefOf(obj), r.propertyKey.dbName)
  {
    PropertyKeys.GetProperty(r.propertyKey, store, obj)
  }

  /** `setProperty`: writes `propertyKey` on the object it is given, and nothing else. */
  function SetProperty(r: Reference, store: Store, obj: GraphObject, v: Value): (s: Store)
    ensures Read(s, RefOf(obj), r.propertyKey.dbName) == v
    ensures forall e: ObjectRef, k :: (e, k) != (RefOf(obj), r.propertyKey.dbName) ==> Read(s, e, k) == Read(store, e, k)
  {
    PropertyKeys.SetProperty(r.propertyKey, store, obj, v)
  }

  /** The entity found depends on the navigation kind and the relationship alone. */
  lemma ReferencedEntityIgnoresKeys(r1: Reference, r2: Reference, rel: Option<Graph.Relationship>)
    requires r1.referenceType == r2.referenceType
    ensures GetReferencedEntity(r1, rel) == GetReferencedEntity(r2, rel)
  {
  }

  /** Every metadata accessor answers exactly what `propertyKey` answers. */
  lemma MetadataDelegates(r: Reference)
    ensures r.DbName() == r.propertyKey.dbName && r.JsonName() == r.propertyKey.jsonName
    ensures r.TypeName() == r.propertyKey.typeName && r.DefaultValue() == r.propertyKey.defaultValue
    ensures r.SortType() == r.propertyKey.sortType && r.RelatedType() == r.propertyKey.relatedType
    ensures r.IsUnvalidated() == r.propertyKey.unvalidated
    ensures r.IsReadOnly() == r.propertyKey.readOnly && r.IsWriteOnce() == r.propertyKey.writeOnce
    ensures r.IsIndexed() == r.propertyKey.indexed
    ensures r.IsPassivelyIndexed() == r.propertyKey.passivelyIndexed
    ensures r.IsSearchable() == r.propertyKey.searchable
    ensures r.IsIndexedWhenEmpty() == r.propertyKey.indexedWhenEmpty
    ensures r.IsCollection() == r.propertyKey.collection
    ensures r.DeclaringClass() == r.propertyKey.declaringClass
    ensures r.Validators() == r.propertyKey.validators
  {
  }

  /** The declaring-class and registration hooks change nothing. */
  lemma HooksChangeNothing(r: Reference, c: ClassName)
    ensures r.SetDeclaringClass(c) == r && r.RegistrationCallback(c) == r
  {
  }

  /** A Reference never asks for synchronization and has no synchronization key. */
  lemma NoSynchronization(r: Reference)
    ensures !r.RequiresSynchronization()
    ensures r.SynchronizationKey() == None
  {
  }

  /** Every Reference is processed at position 0. */
  lemma ProcessedFirst(r: Reference)
    ensures r.ProcessingOrderPosition() == 0
  {
  }
}

=== FILE: reference_group.dfy ===
/**
  `ReferenceGroup`: one virtual property of a relationship that gathers
  several References into a single `PropertyMap` on read, and scatters such
  a map back onto the relationship and its endpoints on write.
 */
module ReferenceGroups {

  import opened Wrappers
  import opened Seqs
  import opened LinkedMaps
  import opened Graph
  import opened PropertyKeys
  import opened References
  import opened Search

  datatype Group = Group(
    name: string,
    entityClass: ClassName,
    propertyKeys: LinkedMap<string, Reference>,
    nullValuesOnlyProperty: PropertyKey)
  {
    /** Every Reference is filed under its own JSON name. */
    ghost predicate Valid() {
      forall n :: n in propertyKeys.values ==> propertyKeys.values[n].JsonName() == n
    }
  }

  type ReferenceGroup = g: Group | g.Valid()
    witness Group("", "", LinkedMap([], map[]), BooleanProperty(".nullValuesOnly"))

  /** `IllegalArgumentException`, thrown for a nested name the group lacks. */
  datatype GroupError = IllegalArgumentException(message: string)

  // ----- construction -----

  function JsonNames(refs: seq<Reference>): (ns: seq<string>)
    ensures |ns| == |refs|
    ensures forall i :: 0 <= i < |refs| ==> ns[i] == refs[i].JsonName()
  {
    seq(|refs|, i requires 0 <= i < |refs| => refs[i].JsonName())
  }

  /** Position of the last Reference in `refs` exposed under `name`. */
  function LastIndexNamed(refs: seq<Reference>, name: string): (i: nat)
    requires name in JsonNames(refs)
    ensures i < |refs| && refs[i].JsonName() == name
    ensures forall j :: i < j < |refs| ==> refs[j].JsonName() != name
  {
    var n := |refs| - 1;
    if refs[n].JsonName() == name then n
    else
      assert name in JsonNames(refs[..n]) by {
        var k :| 0 <= k < |refs| && JsonNames(refs)[k] == name;
        assert JsonNames(refs[..n])[k] == name;
      }
      LastIndexNamed(refs[..n], name)
  }

  /**
    The constructor's loop `propertyKeys.put(key.jsonName(), key)`: one entry
    per JSON name among the arguments.
   */
  function IndexByJsonName(refs: seq<Reference>): (m: LinkedMap<string, Reference>)
    ensures forall n :: n in m.values <==> n in JsonNames(refs)
    ensures forall n :: n in m.values ==> m.values[n].JsonName() == n
    decreases |refs|
  {
    if |refs| == 0 then Empty()
    else
      var prefix := refs[..|refs| - 1];
      var last := refs[|refs| - 1];
      assert JsonNames(refs) == JsonNames(prefix) + [last.JsonName()];
      Put(IndexByJsonName(prefix), last.JsonName(), last)
  }

  /** Each name is bound to the last argument carrying it. */
  lemma {:induction false} IndexBindsLast(refs: seq<Reference>)
    ensures var m := IndexByJsonName(refs);
      forall n :: n in m.values ==> m.values[n] == refs[LastIndexNamed(refs, n)]
    decreases |refs|
  {
    if |refs| > 0 {
      var prefix := refs[..|refs| - 1];
      var last := refs[|refs| - 1];
      IndexBindsLast(prefix);
      assert JsonNames(refs) == JsonNames(prefix) + [last.JsonName()];
      var m := IndexByJsonName(refs);
      forall n | n in m.values
        ensures m.values[n] == refs[LastIndexNamed(refs, n)]
      {
        if n != last.JsonName() {
          assert n in IndexByJsonName(prefix).values;
          assert LastIndexNamed(refs, n) == LastIndexNamed(prefix, n);
        }
      }
    }
  }

  /** The group's names are ordered by where each first occurs among the arguments. */
  lemma {:induction false} IndexKeepsFirstPosition(refs: seq<Reference>)
    ensures forall i, j :: 0 <= i < j < |IndexByJsonName(refs).keys| ==>
      FirstIndex(JsonNames(refs), IndexByJsonName(refs).keys[i])
        < FirstIndex(JsonNames(refs), IndexByJsonName(refs).keys[j])
    decreases |refs|
  {
    if |refs| > 0 {
      var prefix := refs[..|refs| - 1];
      var last := refs[|refs| - 1];
      IndexKeepsFirstPosition(prefix);
      assert JsonNames(refs) == JsonNames(prefix) + [last.JsonName()];
      PutKeepsFirstPosition(IndexByJsonName(prefix), JsonNames(prefix), last.JsonName(), last);
    }
  }

  /** `put` of the next name keeps the keys ordered by first position in the names seen. */
  lemma PutKeepsFirstPosition<V>(m: LinkedMap<string, V>, names: seq<string>, y: string, v: V)
    requires forall k :: k in m.values <==> k in names
    requires forall i, j :: 0 <= i < j < |m.keys| ==> FirstIndex(names, m.keys[i]) < FirstIndex(names, m.keys[j])
    ensures var r := Put(m, y, v);
      forall i, j :: 0 <= i < j < |r.keys| ==> FirstIndex(names + [y], r.keys[i]) < FirstIndex(names + [y], r.keys[j])
  {
    var r := Put(m, y, v);
    forall i, j | 0 <= i < j < |r.keys|
      ensures FirstIndex(names + [y], r.keys[i]) < FirstIndex(names + [y], r.keys[j])
    {
      assert r.keys[i] == m.keys[i];
      FirstIndexAppend(names, y, m.keys[i]);
      if j < |m.keys| {
        assert r.keys[j] == m.keys[j];
        FirstIndexAppend(names, y, m.keys[j]);
      } else {
        assert r.keys[j] == y && y !in names;
        FirstIndexAppendNew(names, y);
      }
    }
  }

  /**
    `new ReferenceGroup(name, entityClass, references...)`. Registration with
    the global configuration is not modelled.
   */
  function NewReferenceGroup(name: string, entityClass: ClassName, refs: seq<Reference>): (g: ReferenceGroup)
    ensures g.name == name && g.entityClass == entityClass
    ensures g.nullValuesOnlyProperty.dbName == name + ".nullValuesOnly"
    ensures g.propertyKeys == IndexByJsonName(refs)
  {
    Group(name, entityClass, IndexByJsonName(refs), BooleanProperty(name + ".nullValuesOnly"))
  }

  // ----- reading and writing grouped values -----

  /** The entity `r` navigates to from `rel`, if any. */
  function Target(r: Reference, rel: Graph.Relationship): Option<GraphObject> {
    GetReferencedEntity(r, Some(rel))
  }

  /** The group names whose Reference finds an entity on `rel`. */
  function Resolving(refs: map<string, Reference>, rel: Graph.Relationship): set<string> {
    set n | n in refs && Target(refs[n], rel).Some?
  }

  /** `names` lists distinct keys of `refs`, each filed under its own JSON name. */
  ghost predicate Indexes(refs: map<string, Reference>, names: seq<string>) {
    && Distinct(names)
    && forall i :: 0 <= i < |names| ==> names[i] in refs && refs[names[i]].JsonName() == names[i]
  }

  /** The loop of `getGroupedProperties` over the references named by `names`. */
  function Gather(refs: map<string, Reference>, names: seq<string>, rel: Graph.Relationship, store: Store): (m: PropertyMap)
    requires Indexes(refs, names)
    ensures m.keys == KeepIn(names, Resolving(refs, rel))
    ensures forall n :: n in m.values ==>
      && Target(refs[n], rel).Some?
      && m.values[n] == PropertyKeys.GetProperty(refs[n].referenceKey, store, Target(refs[n], rel).value)
    decreases |names|
  {
    if |names| == 0 then Empty()
    else
      var m := Gather(refs, names[..|names| - 1], rel, store);
      var r := refs[names[|names| - 1]];
      match Target(r, rel)
      case None => m
      case Some(e) =>
        assert names[|names| - 1] !in names[..|names| - 1];
        Put(m, r.propertyKey.jsonName, PropertyKeys.GetProperty(r.referenceKey, store, e))
  }

  /**
    `getGroupedProperties`: `null` unless the object is a relationship;
    otherwise one entry per Reference that finds its entity, in group order,
    holding that entity's value under `referenceKey`. References that find
    nothing leave no entry at all.
   */
  function GetGroupedProperties(g: ReferenceGroup, store: Store, source: Option<GraphObject>): (r: Option<PropertyMap>)
    ensures r.Some? <==> source.Some? && source.value.RelationshipObject?
    ensures r.Some? ==>
      r.value.keys == KeepIn(g.propertyKeys.keys, Resolving(g.propertyKeys.values, source.value.rel))
    ensures r.Some? ==> forall n :: n in r.value.values ==>
      var ref := g.propertyKeys.values[n];
      && Target(ref, source.value.rel).Some?
      && r.value.values[n] == PropertyKeys.GetProperty(ref.referenceKey, store, Target(ref, source.value.rel).value)
  {
    match source
    case Some(RelationshipObject(rel)) => Some(Gather(g.propertyKeys.values, g.propertyKeys.keys, rel, store))
    case _ => None
  }

  /** A Reference writes only when it finds its entity and is not read-only. */
  predicate Writes(r: Reference, rel: Graph.Relationship) {
    Target(r, rel).Some? && !r.IsReadOnly()
  }

  /** `r` leads to property `k` of entity `e`, whether or not it may write it. */
  predicate Reaches(r: Reference, rel: Graph.Relationship, e: ObjectRef, k: string) {
    Target(r, rel).Some? && RefOf(Target(r, rel).value) == e && r.referenceKey.dbName == k
  }

  /** `r` writes property `k` of entity `e`. */
  predicate WritesTo(r: Reference, rel: Graph.Relationship, e: ObjectRef, k: string) {
    Reaches(r, rel, e, k) && !r.IsReadOnly()
  }

  /**
    One turn of the `setGroupedProperties` loop: a writing Reference stores
    `source.get(propertyKey)` on its entity, `null` when the map has no such
    entry; any other Reference is skipped without error.
   */
  function WriteThrough(r: Reference, rel: Graph.Relationship, values: PropertyMap, store: Store): (s: Store)
    ensures !Writes(r, rel) ==> s == store
    ensures Writes(r, rel) ==>
      Read(s, RefOf(Target(r, rel).value), r.referenceKey.dbName) == Lookup(values, r.JsonName())
    ensures forall e: ObjectRef, k :: !WritesTo(r, rel, e, k) ==> Read(s, e, k) == Read(store, e, k)
  {
    if Writes(r, rel) then
      PropertyKeys.SetProperty(r.referenceKey, store, Target(r, rel).value, Lookup(values, r.propertyKey.jsonName))
    else store
  }

  /** The last name in `names` whose Reference writes property `k` of entity `e`. */
  function LastWriter(refs: map<string, Reference>, names: seq<string>, rel: Graph.Relationship, e: ObjectRef, k: string): (w: Option<string>)
    requires forall i :: 0 <= i < |names| ==> names[i] in refs
    ensures w.Some? ==> w.value in names && WritesTo(refs[w.value], rel, e, k)
    ensures w.None? ==> forall i :: 0 <= i < |names| ==> !WritesTo(refs[names[i]], rel, e, k)
  {
    if |names| == 0 then None
    else if WritesTo(refs[names[|names| - 1]], rel, e, k) then Some(names[|names| - 1])
    else LastWriter(refs, names[..|names| - 1], rel, e, k)
  }

  /** The loop of `setGroupedProperties` over the references named by `names`. */
  function Scatter(refs: map<string, Reference>, names: seq<string>, rel: Graph.Relationship, values: PropertyMap, store: Store): (s: Store)
    requires forall i :: 0 <= i < |names| ==> names[i] in refs
    ensures
      forall e: ObjectRef, k ::
        Read(s, e, k) == (
          var w := LastWriter(refs, names, rel, e, k);
          if w.Some? then Lookup(values, refs[w.value].JsonName()) else Read(store, e, k))
    decreases |names|
  {
    if |names| == 0 then store
    else WriteThrough(refs[names[|names| - 1]], rel, values, Scatter(refs, names[..|names| - 1], rel, values, store))
  }

  /**
    `setGroupedProperties`: nothing changes unless the destination is a
    relationship. Otherwise each property some writing Reference targets ends
    up with the map's value for the last such Reference, and every other
    property of every entity is left alone.
   */
  function SetGroupedProperties(g: ReferenceGroup, store: Store, values: PropertyMap, destination: Option<GraphObject>): (s: Store)
    ensures !(destination.Some? && destination.value.RelationshipObject?) ==> s == store
    ensures destination.Some? && destination.value.RelationshipObject? ==>
      forall e: ObjectRef, k ::
        Read(s, e, k) == (
          var w := LastWriter(g.propertyKeys.values, g.propertyKeys.keys, destination.value.rel, e, k);
          if w.Some? then Lookup(values, g.propertyKeys.values[w.value].JsonName()) else Read(store, e, k))
  {
    match destination
    case Some(RelationshipObject(rel)) => Scatter(g.propertyKeys.values, g.propertyKeys.keys, rel, values, store)
    case _ => store
  }

  /** A property that no Reference of the group writes keeps its value. */
  lemma SetLeavesOthersAlone(g: ReferenceGroup, store: Store, values: PropertyMap, rel: Graph.Relationship, e: ObjectRef, k: string)
    requires forall n :: n in g.propertyKeys.values ==> !WritesTo(g.propertyKeys.values[n], rel, e, k)
    ensures Read(SetGroupedProperties(g, store, values, Some(RelationshipObject(rel))), e, k) == Read(store, e, k)
  {
  }

  /** A property reached only through read-only References is never overwritten. */
  lemma ReadOnlyIsNeverWritten(g: ReferenceGroup, store: Store, values: PropertyMap, rel: Graph.Relationship, e: ObjectRef, k: string)
    requires forall n :: n in g.propertyKeys.values && Reaches(g.propertyKeys.values[n], rel, e, k) ==>
      g.propertyKeys.values[n].IsReadOnly()
    ensures Read(SetGroupedProperties(g, store, values, Some(RelationshipObject(rel))), e, k) == Read(store, e, k)
  {
  }

  /** Writing back what was just read changes no stored value. */
  lemma GetThenSetRestoresValues(g: ReferenceGroup, store: Store, rel: Graph.Relationship)
    ensures var obj := Some(RelationshipObject(rel));
      SameValues(SetGroupedProperties(g, store, GetGroupedProperties(g, store, obj).value, obj), store)
  {
    var obj := Some(RelationshipObject(rel));
    var m := GetGroupedProperties(g, store, obj).value;
    var s := SetGroupedProperties(g, store, m, obj);
    forall e: ObjectRef, k
      ensures Read(s, e, k) == Read(store, e, k)
    {
      var w := LastWriter(g.propertyKeys.values, g.propertyKeys.keys, rel, e, k);
      if w.Some? {
        assert w.value in m.keys;
      }
    }
  }

  /**
    When no two References of the group lead to the same property and none is
    read-only, reading after a write gives back the written value of every
    entry the read produces.
   */
  lemma SetThenGetReadsBack(g: ReferenceGroup, store: Store, values: PropertyMap, rel: Graph.Relationship)
    requires forall n :: n in g.propertyKeys.values ==> !g.propertyKeys.values[n].IsReadOnly()
    requires forall n1, n2 :: n1 in g.propertyKeys.values && n2 in g.propertyKeys.values && n1 != n2 ==>
      Apart(g.propertyKeys.values[n1], g.propertyKeys.values[n2], rel)
    ensures var obj := Some(RelationshipObject(rel));
      var read := GetGroupedProperties(g, SetGroupedProperties(g, store, values, obj), obj).value;
      forall n :: n in read.values ==> read.values[n] == Lookup(values, n)
  {
    var obj := Some(RelationshipObject(rel));
    var refs := g.propertyKeys.values;
    var s := SetGroupedProperties(g, store, values, obj);
    var read := GetGroupedProperties(g, s, obj).value;
    forall n | n in read.values
      ensures read.values[n] == Lookup(values, n)
    {
      var e := RefOf(Target(refs[n], rel).value);
      var k := refs[n].referenceKey.dbName;
      assert WritesTo(refs[n], rel, e, k);
      var w := LastWriter(refs, g.propertyKeys.keys, rel, e, k);
      assert w.Some? && w.value == n;
    }
  }

  /** `a` and `b` never lead to the same property of the same entity. */
  predicate Apart(a: Reference, b: Reference, rel: Graph.Relationship) {
    Target(a, rel).Some? && Target(b, rel).Some? ==>
      (RefOf(Target(a, rel).value), a.referenceKey.dbName) != (RefOf(Target(b, rel).value), b.referenceKey.dbName)
  }

  /**
    A Reference to the relationship and one to an endpoint never lead to the
    same property, even when the relationship and the node share an id.
   */
  lemma RelationshipAndEndpointApart(a: Reference, b: Reference, rel: Graph.Relationship)
    requires a.referenceType.Relationship? && !b.referenceType.Relationship?
    ensures Apart(a, b, rel) && Apart(b, a, rel)
  {
  }

  // ----- search -----

  /** Group names for which the search values hold a non-null value. */
  function Supplied(refs: map<string, Reference>, searchValues: PropertyMap): set<string> {
    set n | n in refs && Lookup(searchValues, refs[n].JsonName()) != Null
  }

  /** The loop of `getSearchAttribute` over the references named by `names`. */
  function SearchMembers(refs: map<string, Reference>, names: seq<string>, searchValues: PropertyMap, exactMatch: bool): (ms: seq<PropertySearchAttribute>)
    requires forall i :: 0 <= i < |names| ==> names[i] in refs
    ensures var kept := KeepIn(names, Supplied(refs, searchValues));
      && |ms| == |kept|
      && forall i :: 0 <= i < |ms| ==>
        ms[i] == PropertySearchAttribute(refs[kept[i]], ToString(Lookup(searchValues, refs[kept[i]].JsonName())), Must, exactMatch)
    decreases |names|
  {
    if |names| == 0 then []
    else
      var n := names[|names| - 1];
      var prefix := names[..|names| - 1];
      var r := refs[n];
      var v := Lookup(searchValues, r.JsonName());
      var supplied := Supplied(refs, searchValues);
      assert KeepIn(names, supplied) == KeepIn(prefix, supplied) + (if n in supplied then [n] else []);
      assert n in supplied <==> v != Null;
      SearchMembers(refs, prefix, searchValues, exactMatch)
        + (if v != Null then [PropertySearchAttribute(r, ToString(v), Must, exactMatch)] else [])
  }

  /**
    `getSearchAttribute`: a group under the caller's `occur` with one MUST
    member per Reference, in group order, whose JSON name has a non-null
    search value, matching its string form.
   */
  function GetSearchAttribute(g: ReferenceGroup, occur: Occur, searchValues: PropertyMap, exactMatch: bool): (a: SearchAttributeGroup)
    ensures a.occur == occur
    ensures var kept := KeepIn(g.propertyKeys.keys, Supplied(g.propertyKeys.values, searchValues));
      && |a.members| == |kept|
      && forall i :: 0 <= i < |a.members| ==>
        var ref := g.propertyKeys.values[kept[i]];
        a.members[i] == PropertySearchAttribute(ref, ToString(Lookup(searchValues, ref.JsonName())), Must, exactMatch)
  {
    SearchAttributeGroup(occur, SearchMembers(g.propertyKeys.values, g.propertyKeys.keys, searchValues, exactMatch))
  }

  // ----- nested access -----

  function MissingNested(g: ReferenceGroup, name: string): GroupError {
    IllegalArgumentException("ReferenceGroup " + g.name + " does not contain grouped property " + name + "!")
  }

  /** `getNestedProperty`: the Reference filed under `name`, or a failure when there is none. */
  function GetNestedProperty(g: ReferenceGroup, name: string): (r: Result<Reference, GroupError>)
    ensures r.Failure? <==> name !in g.propertyKeys.keys
    ensures r.Failure? ==> r.error == MissingNested(g, name)
    ensures r.Success? ==> r.value == g.propertyKeys.values[name] && r.value.JsonName() == name
  {
    match Get(g.propertyKeys, name)
    case None => Failure(MissingNested(g, name))
    case Some(r) => Success(r)
  }

  /**
    `getDirectAccessReferenceGroup`: a generic property named after the
    database name of the Reference filed under `name`, or a failure when
    there is none.
   */
  function GetDirectAccessReferenceGroup(g: ReferenceGroup, name: string): (r: Result<PropertyKey, GroupError>)
    ensures r.Failure? <==> name !in g.propertyKeys.keys
    ensures r.Failure? ==> r.error == MissingNested(g, name)
    ensures r.Success? ==> r.value == GenericProperty(g.propertyKeys.values[name].DbName())
    ensures r.Success? ==> r.value.dbName == g.propertyKeys.values[name].propertyKey.dbName
  {
    match Get(g.propertyKeys, name)
    case None => Failure(MissingNested(g, name))
    case Some(r) => Success(GenericProperty(r.DbName()))
  }

  // ----- the group as a property key -----

  /** `getProperty` on the group reads the grouped value. */
  function GetProperty(g: ReferenceGroup, store: Store, obj: Option<GraphObject>): (r: Option<PropertyMap>)
    ensures r.Some? <==> obj.Some? && obj.value.RelationshipObject?
    ensures r.Some? ==>
      r.value.keys == KeepIn(g.propertyKeys.keys, Resolving(g.propertyKeys.values, obj.value.rel))
    ensures r.Some? ==> forall n :: n in r.value.values ==>
      var ref := g.propertyKeys.values[n];
      && Target(ref, obj.value.rel).Some?
      && r.value.values[n] == PropertyKeys.GetProperty(ref.referenceKey, store, Target(ref, obj.value.rel).value)
  {
    GetGroupedProperties(g, store, obj)
  }

  /** `setProperty` on the group writes the grouped value. */
  function SetProperty(g: ReferenceGroup, store: Store, obj: Option<GraphObject>, value: PropertyMap): (s: Store)
    ensures !(obj.Some? && obj.value.RelationshipObject?) ==> s == store
    ensures obj.Some? && obj.value.RelationshipObject? ==>
      forall e: ObjectRef, k ::
        Read(s, e, k) == (
          var w := LastWriter(g.propertyKeys.values, g.propertyKeys.keys, obj.value.rel, e, k);
          if w.Some? then Lookup(value, g.propertyKeys.values[w.value].JsonName()) else Read(store, e, k))
  {
    SetGroupedProperties(g, store, value, obj)
  }

  /**
    Used as an ordinary property key, the group is `null` on a node and leaves
    the store alone there, and on a relationship it stores back what it reads.
   */
  lemma PropertyKeyRoundTrip(g: ReferenceGroup, store: Store, obj: GraphObject, value: PropertyMap)
    ensures obj.NodeObject? ==> GetProperty(g, store, Some(obj)).None? && SetProperty(g, store, Some(obj), value) == store
    ensures obj.RelationshipObject? ==>
      SameValues(SetProperty(g, store, Some(obj), GetProperty(g, store, Some(obj)).value), store)
  {
    if obj.RelationshipObject? {
      GetThenSetRestoresValues(g, store, obj.rel);
    }
  }

  /** A group yields one composite value, never a collection. */
  predicate IsCollection(g: ReferenceGroup) {
    false
  }

  function TypeName(g: ReferenceGroup): string {
    "Object"
  }

  /** `setDeclaringClass` forwards to each Reference, each of which ignores it. */
  function SetDeclaringClass(g: ReferenceGroup, declaringClass: ClassName): (r: ReferenceGroup)
    ensures r == g
  {
    var m := g.propertyKeys.values;
    var forwarded := map n | n in m :: m[n].SetDeclaringClass(declaringClass);
    assert forwarded == m;
    g.(propertyKeys := LinkedMap(g.propertyKeys.keys, forwarded))
  }
}

=== FILE: search.dfy ===
/**
  The predicate tree a ReferenceGroup hands to the query engine: a group of
  per-key attributes under one boolean occurrence rule.
 */
module Search {

  import opened References

  /** Lucene's `BooleanClause.Occur`. */
  datatype Occur = Must | Should | MustNot

  /** `PropertySearchAttribute`: match `key` against the string form of a value. */
  datatype PropertySearchAttribute = PropertySearchAttribute(key: Reference, value: string, occur: Occur, exactMatch: bool)

  /** `SearchAttributeGroup`: members in the order they were added. */
  datatype SearchAttributeGroup = SearchAttributeGroup(occur: Occur, members: seq<PropertySearchAttribute>)
}

=== FILE: seqs.dfy ===
/** Order-preserving filtering and first positions in sequences. */
module Seqs {

  ghost predicate Distinct<T>(s: seq<T>) {
    forall i, j :: 0 <= i < j < |s| ==> s[i] != s[j]
  }

  /** The elements of `s` that lie in `allowed`, in their order in `s`. */
  function KeepIn<T(==, !new)>(s: seq<T>, allowed: set<T>): (r: seq<T>)
    ensures |r| <= |s|
    ensures forall x :: x in r <==> x in s && x in allowed
    ensures forall i :: 0 <= i < |r| ==> r[i] in s && r[i] in allowed
  {
    if |s| == 0 then []
    else KeepIn(s[..|s| - 1], allowed) + (if s[|s| - 1] in allowed then [s[|s| - 1]] else [])
  }

  /** Position of the first occurrence of `x` in `s`. */
  function FirstIndex<T(==)>(s: seq<T>, x: T): (i: nat)
    requires x in s
    ensures i < |s| && s[i] == x && x !in s[..i]
  {
    if s[0] == x then 0 else 1 + FirstIndex(s[1..], x)
  }

  /** The first occurrence is the only one with no earlier occurrence. */
  lemma FirstIndexUnique<T>(s: seq<T>, x: T, i: nat)
    requires i < |s| && s[i] == x && x !in s[..i]
    ensures FirstIndex(s, x) == i
  {
  }

  /** Appending leaves the first position of an element already present unchanged. */
  lemma FirstIndexAppend<T>(s: seq<T>, y: T, x: T)
    requires x in s
    ensures FirstIndex(s + [y], x) == FirstIndex(s, x)
  {
    var i := FirstIndex(s, x);
    assert (s + [y])[..i] == s[..i];
    FirstIndexUnique(s + [y], x, i);
  }

  /** A new element appended first occurs at the old length. */
  lemma FirstIndexAppendNew<T>(s: seq<T>, y: T)
    requires y !in s
    ensures FirstIndex(s + [y], y) == |s|
  {
    assert (s + [y])[..|s|] == s;
    FirstIndexUnique(s + [y], y, |s|);
  }
}

=== FILE: wrappers.dfy ===
/** Option and Result, standing in for Java's `null` and for thrown exceptions. */
module Wrappers {

  /** `None` plays the part of a Java `null` reference. */
  datatype Option<+T> = None | Some(value: T) {

    /** Returns the wrapped value, or `default` for `None`. */
    function GetOr(default: T): T {
      match this
      case Some(v) => v
      case None => default
    }
  }

  /** `Failure` carries the exception a Java method would have thrown. */
  datatype Result<+R, +E> = Success(value: R) | Failure(error: E)
}
